=== FILE: README.md ===
# cfbot certificate lifecycle in Dafny

cfbot keeps a Cloudflare Origin CA certificate installed on a server. On the
first run (`--init`) it creates `/etc/cfbot` and `/etc/cfbot/live` and
requests a certificate. It saves its settings with the new certificate's id
to `/etc/cfbot/cfbot.json` and installs a cron job. On each later run it
reads the live certificate. When fewer than 48 hours of validity are left, it
requests a new certificate, writes it, runs the post-renew command, and
revokes the certificate whose id is stored in the configuration. Every error
goes through `Check`, which prints and exits.

This project models that lifecycle from `utils/root.go` as one pure function:

- **Input.** `Env` is everything a run depends on that the code does not
  compute itself:
  - the resolved settings;
  - what `os.Stat` reports for each directory;
  - the stored certificate's NotAfter and the current time, in nanoseconds;
  - the CSR text cfssl produces;
  - the CA's answer;
  - the set of operations whose error is non-nil.
- **Output.** `Run` (module Lifecycle) gives the trace of operations the code
  performs, in order, and an outcome: `Done`, `NoRenewalNeeded` or
  `Aborted(reason)`.
- **Operations.** Every operation that can end the run, or that touches the
  file system or the CA, is in the trace. That includes the PEM decodes and
  the JSON encoding.
- **Errors.** A straight-line stretch of code runs up to and including its
  first failing operation under `Check`, and nothing after it. The two
  `WriteString` calls and the decodes of the generated CSR and key are not
  checked: the run goes on whether they fail or not. A failed certificate
  write leaves the certificate file unusable, which `History` records. A
  nil decode panics where the block is first used, in the CSR encoding or
  the key write, which then fail.

Modules:

- `Configs`: the configuration struct and how `Cfbot` assembles it.
- `Validity`: the 48-hour renewal decision, with Go's saturating
  `Time.Sub` and an exact reading of `Duration.Hours`.
- `Effects`: the operations, the order the code performs them in (`Rank`), and the
  abort-on-first-error execution.
- `Lifecycle`: the run itself, and how it splits into a directory stretch, a
  validity-check stretch and an issuance stretch.
- `Properties`: flag validation, directories and the renew-or-skip decision.
- `Issuing`: `generateCertificate`. This covers:
  - step order;
  - request contents;
  - what a failure part-way leaves;
  - the two mode-specific endings.
- `History`: several runs in a row. It tracks what lasts between runs: the
  saved configuration, the installed certificate, and the certificates the CA
  holds unrevoked.

`Orchestrate(env, savesRenewedId)` is shared by two functions:

- `Run` is `Orchestrate(env, false)`, the code as written.
- `RunFixed` is `Orchestrate(env, true)`. It also saves the new certificate id
  on a renewal, before the revoke (see Findings).

Most properties are stated for both variants.

Operation order: every trace is strictly increasing in `Rank`, which numbers
the operations in the order the code performs them (program order), not
the order of the source text. So "A before B" is a
statement about ranks, and each operation occurs at most once per run.

## Model

| member | source | states |
|---|---|---|
| Configs.Assemble | utils/root.go:230-246 | How `Cfbot` builds the configuration from the settings: auth key, hostnames, validity and post-renew command always, and the stored certificate id only on a later run. It has no ensures of its own; `Configs.Reload` and `Properties.StoredIdIgnoredOnInitialRun` state its properties. |
| Configs.Reload | utils/root.go:233-246 | The settings a later run reads back from a saved configuration are a non-initial run's settings, and they assemble to exactly the saved configuration, stored certificate id included. |
| Validity.Sub | utils/root.go:178 | `NotAfter.Sub(now)` is a duration Go can represent (int64 nanoseconds), and no representable duration is nearer the true difference. |
| Validity.SubIsExactInRange | utils/root.go:178 | When the true difference fits in int64, `Sub` returns it unchanged. |
| Validity.HoursBelowBuffer | utils/root.go:178-183 | The comparison as the code writes it, `Hours() < bufferHours`, read with exact reals. It has no ensures of its own; `Validity.NeedsRenewalMatchesHours` and `Validity.ThresholdInWholeHours` state its meaning. |
| Validity.NeedsRenewal | utils/root.go:177-183 | The renewal decision as an integer comparison of nanoseconds with 48 hours. It has no ensures of its own; `Validity.NeedsRenewalMatchesHours` proves it equals `HoursBelowBuffer`, and `Validity.RenewalDecision` and `Validity.NeedsRenewalIsMonotone` state its properties. |
| Validity.NeedsRenewalMatchesHours | utils/root.go:177-183 | Comparing the duration with 48 hours in nanoseconds gives the same answer as comparing its exact length in hours with `bufferHours`. |
| Validity.ThresholdInWholeHours | utils/root.go:177-183 | Renewal is due exactly when fewer than 48 whole hours are left. Exactly 48 hours left is not due; one nanosecond less is due. |
| Validity.RenewalDecision | utils/root.go:177-183 | Whether renewal is due depends only on whether NotAfter minus now is under 48 hours; saturation of `Sub` never changes the answer. |
| Validity.NeedsRenewalIsMonotone | utils/root.go:179-183 | A certificate with less time left than one that is due is due as well. |
| Effects.Checked | utils/root.go:42-53 | Which operations have their error passed to `Check`. `Stat`'s answer is a directory state, the two `WriteString` errors are dropped (lines 97 and 150), and the nil results of the decodes at lines 126-127 are not checked. It has no ensures of its own; `Effects.UncheckedContinues`, `Issuing.CertificateWriteContinues` and `Issuing.DecodesNeverAbort` state what it means for a run. |
| Effects.Execute | utils/root.go:42-53 | A straight-line stretch under `Check`/`er`: performed up to and including the first checked failure, which exits. It has no ensures of its own; `Effects.ExecutePrefix` and `Effects.ExecuteFailureIsTerminal` characterise it. |
| Effects.FirstFailingIsFirst | utils/root.go:48-53 | The first failing operation is found: none before it fails, and it fails unless it marks the end of the plan. |
| Effects.ExecutePrefix | utils/root.go:42-53 | A stretch under `Check` performs a prefix of its plan in which only the last operation may fail. With no failure it performs the whole plan and nothing in it failed. Otherwise it ends at the failing operation, and that operation is the reported reason. |
| Effects.ExecuteFailureIsTerminal | utils/root.go:42-53 | After a stretch under `Check`, no operation before the last one failed. None failed at all when no failure is reported. A reported failed operation is the last one performed, and it did fail. |
| Effects.UncheckedContinues | utils/root.go:149-153 | An operation whose error the code drops is always followed by the next operation of its plan. |
| Lifecycle.Orchestrate | utils/root.go:200-228 | The run: `validateFlags` aborts on an empty auth key and then on empty hostnames, then `checkInitialRunAndCreateCertificate` runs. With `savesRenewedId` a renewal also saves the new id. It has no ensures of its own; `Lifecycle.OrchestrateShape`, `Lifecycle.Segments`, `Lifecycle.SegmentOutcome`, `Lifecycle.OrchestrateOrdered` and the `Properties` lemmas characterise it. |
| Lifecycle.Run | utils/root.go:200-228 | The run as the code is written: `Orchestrate` without saving the renewed id. `Issuing.RenewalEnding`, `History.AsWrittenRenewalLosesTrack` and `History.AsWrittenThreeRuns` state what it does on renewals. |
| Lifecycle.RunFixed | utils/root.go:156-164 | The corrected run, which saves the new id on a renewal before the revoke. `Issuing.RenewalEndingFixed`, `Issuing.FixChangesOnlyRenewals` and `History.FixedCampaignTracks` state what it does. |
| Lifecycle.Directories | utils/root.go:201-202 | Both directory checks, the config directory first; its ensures says the first operation is the config directory's stat. `Lifecycle.DirectoriesOrdered` and `Properties.DirectoryChecks` state the rest. |
| Lifecycle.CertificateWork | utils/root.go:203-215 | After the directories: an initial run issues at once, and a later run reads, decodes and parses the stored certificate (`ReadPlan`, lines 168-176) and issues only when renewal is due. It has no ensures of its own; `Lifecycle.CertificateWorkTerminal`, `Properties.RenewalFollowsThreshold` and `Properties.InitialRunSkipsValidityCheck` characterise it. |
| Lifecycle.IssueSteps | utils/root.go:114-153 | The steps of `generateCertificate` both modes share, in code order. It has no ensures of its own; `Lifecycle.IssueStepsOrdered`, `Issuing.PlanSteps`, `Issuing.PlanDecodeSteps` and `Issuing.PlanCarries` state their order and contents. |
| Lifecycle.IssuePlan | utils/root.go:112-165 | The whole `generateCertificate` plan: the shared steps, then the configuration save and `CronPlan` (the cron file opened 0644 and written, lines 80-98) on an initial run, or the revoke on a renewal. It has no ensures of its own; `Lifecycle.IssuePlanOrdered` and `Issuing.PlanShape` characterise it. |
| Lifecycle.SavePlan | utils/root.go:100-109 | `saveConfigsJSON`: marshal the configuration, open cfbot.json 0664 with truncation, write it. It has no ensures of its own; `Lifecycle.SavePlanRanks`, `Issuing.PlanCarries` and `History.FailedSaveEmptiesConfig` state its order, contents and effect. |
| Lifecycle.RevokePlan | utils/root.go:69-77 | `revokePreviousCertificate`: one revoke of the stored id under the auth key, with client creation folded in. It has no ensures of its own; `Issuing.PlanShape` and `Issuing.RenewalEnding` state where it happens and what it names. |
| Lifecycle.VerifyDirectory | utils/root.go:187-197 | The directory is always stat'ed first. `MkdirAll` with mode 0755 happens exactly when the directory is missing on an initial run. The check passes exactly when the directory exists, or was missing on an initial run and was created. Any other state aborts with the folders-not-set-up error. |
| Lifecycle.IssueStepsOrdered | utils/root.go:112-153 | The shared issuance steps follow program order: CSR, key file, decodes, CSR encode, key write, CA call, certificate file, certificate write, hook. |
| Lifecycle.IssuePlanOrdered | utils/root.go:112-165 | The whole `generateCertificate` plan, including the save, cron or revoke ending, follows program order. |
| Lifecycle.CertificateWorkTerminal | utils/root.go:200-216 | A failure in the validity check or in issuance ends the run there. |
| Lifecycle.DirectoriesTerminal | utils/root.go:200-202 | A failed directory check ends the directory stretch. |
| Lifecycle.FailureEndsRun | utils/root.go:42-53 | In every run, no operation before the last one failed. A run that was not aborted had no failing operation. An abort for a failed operation names the last operation performed. |
| Lifecycle.DirectoriesOrdered | utils/root.go:201-202 | The config directory is handled entirely before the live directory. |
| Lifecycle.OrchestrateShape | utils/root.go:200-216 | A run with valid flags is its directory stretch, then one of four things: an abort there; issuance on an initial run; the validity check alone when it fails or finds no renewal due; or the validity check followed by issuance. |
| Lifecycle.Segments | utils/root.go:200-228 | Every run's trace is the directory stretch, then the check stretch, then the issuance stretch, each empty when the run does not get that far. |
| Lifecycle.SegmentOutcome | utils/root.go:203-215 | A run is `Done` exactly when it reaches issuance and issuance does not fail. It is `NoRenewalNeeded` exactly when a later run reads its certificate without error and finds at least the buffer left. |
| Lifecycle.RunContains | utils/root.go:200-216 | An operation is in a run exactly when it is in the stretch its rank belongs to. |
| Lifecycle.OrchestrateOrdered | utils/root.go:200-216 | Every run performs its operations in program order, each at most once. |
| Properties.FlagsAreValidatedFirst | utils/root.go:219-228 | An empty auth key aborts with no operation performed. With an auth key but no hostnames, the run aborts with no operation performed. With both, the first operation is the config directory's stat. |
| Properties.DirectoryChecks | utils/root.go:187-202 | The config directory is stat'ed first, and the live directory is reached whenever the checks pass. A directory is created only when it is missing on an initial run. A config directory in error, or missing on a later run, aborts with the folders-not-set-up error; so does the live directory when the config directory exists. When both exist the checks succeed with just the two stats. |
| Properties.DirectoriesComeFirst | utils/root.go:200-202 | Once the flags are valid, the run begins with the directory checks. Anything after them happens only when both checks passed, and is certificate work. |
| Properties.DirectoryFailureEndsRun | utils/root.go:187-197 | Only a missing directory on an initial run is ever created, and a failed directory check ends the whole run. |
| Properties.InitialRunSkipsValidityCheck | utils/root.go:203-207 | An initial run never reads, decodes or parses the stored certificate, and it never ends with no renewal needed. With valid flags and its directories in place, it starts issuance. |
| Properties.RenewalFollowsThreshold | utils/root.go:208-215 | On a later run, no CSR, CA call, hook, revoke or cron operation happens unless renewal is due. With the flags and directories in place and the certificate readable, the run issues exactly when renewal is due. Otherwise it ends with no renewal needed, after only the directory checks and the read. |
| Properties.UnreadableCertificateAborts | utils/root.go:167-176 | On a later run, a stored certificate that cannot be read, PEM-decoded or parsed aborts the run at that step, before any certificate work. |
| Properties.CheckStretchBelowIssuance | utils/root.go:169-176 | A failed validity check leaves the directory checks and the partial read as the whole run. |
| Properties.StoredIdIgnoredOnInitialRun | utils/root.go:237-242 | The stored certificate id is read only on later runs: an initial run behaves identically whatever id the settings carry. |
| Issuing.PlanCarries | utils/root.go:112-164 | Every step of the plan carries what the settings say it should: the CSR request, the CA request, the certificate written, the hook command, the saved configuration with the new id, the revoked id, and the file paths and modes. |
| Issuing.RunCarries | utils/root.go:112-164 | Every operation a run performs carries the expected fields. The CSR is RSA 2048 with CN "Cloudflare" and the configured hostnames. The CA request is type "origin-rsa" with the configured hostnames and validity and the generated CSR, under the auth key. Key and certificate files get 0600, the config 0664, cron 0644. A revoke names the stored id and happens only on a later run. |
| Issuing.DoneRunsWholePlan | utils/root.go:112-165 | A run that completes reached issuance, performed every step of the plan, and ended with the plan's last step. |
| Issuing.AbortedInIssuance | utils/root.go:112-165 | A run aborted by an issuance step performed every step of the plan ranked before it, and nothing ranked after it. |
| Issuing.PlanShape | utils/root.go:156-164 | The plan holds the shared steps. An initial run adds the configuration save and cron install and ends with the cron write. A renewal ends with the revoke of the stored id under the auth key. Only a corrected renewal saves, and a renewal has no cron step. |
| Issuing.PlanSteps | utils/root.go:114-153 | Steps 0, 1 and 5 to 9 of the plan are the CSR, the key file opened 0600, the key write, the CA call, the certificate file opened 0600, the certificate write and the hook. |
| Issuing.PlanDecodeSteps | utils/root.go:126-129 | Steps 2 to 4 of the plan are the CSR decode, the key decode and the CSR encoding. |
| Issuing.RunHasEarlier | utils/root.go:112-165 | A run that performed a step of the plan performed every earlier step. |
| Issuing.HookFollowsCertificate | utils/root.go:142-153 | The post-renew command runs only after the key was written, the CA issued and the certificate was written. Once the certificate is written the command always runs. |
| Issuing.CertificateWriteContinues | utils/root.go:149-153 | The certificate write is always followed by the hook, because its error is dropped. |
| Issuing.DoneWritesCertificate | utils/root.go:117-153 | A completed run generated the CSR, wrote the key, obtained the certificate from the CA, opened the certificate file, performed the certificate write and ran the hook. That write may have failed unnoticed; `History.DoneEffect` says what the file then holds. |
| Issuing.DecodesNeverAbort | utils/root.go:126-133 | The decodes of the generated CSR and key never end the run: once the CSR decode happened, the key decode and the CSR encoding happen too, and so does the CSR encoding once the key decode happened. |
| Issuing.AuthorityFailureLeavesNewKey | utils/root.go:122-143 | When the CA call fails, the key file has already been truncated and rewritten. No certificate file, hook, configuration, cron or revoke operation happened. |
| Issuing.HookFailureLeavesNewCertificate | utils/root.go:142-164 | When the hook fails, the CA has issued and the certificate write was performed; it may have failed unnoticed. No configuration, cron or revoke operation happened. |
| Issuing.InitialRunSavedConfig | utils/root.go:156-160 | The configuration an initial run saves is its settings with the new certificate's id. |
| Issuing.InitialRunNeverRevokes | utils/root.go:156-163 | An initial run never revokes a certificate. |
| Issuing.InitialRunEnding | utils/root.go:156-162 | A completed initial run encoded and wrote the configuration with the new id, and its last act was the cron write. |
| Issuing.RenewalEnding | utils/root.go:156-164 | A renewal as written never saves the configuration or touches cron. When it completes, its last act is revoking the stored id under the auth key. |
| Issuing.RenewalFixedSkipsCron | utils/root.go:156-164 | A corrected renewal never touches cron. |
| Issuing.RenewalEndingFixed | utils/root.go:156-164 | A completed corrected renewal wrote the configuration with the new id, and its last act was revoking the stored id. |
| Issuing.FixChangesOnlyRenewals | utils/root.go:156-164 | The correction changes nothing on an initial run, nor on any run that stops before issuance. |
| History.InstalledAfter | utils/root.go:145-150 | After operations in program order, the certificate file holds the run's certificate when a write to it succeeded. It is unusable when the truncating open happened, or the write failed unnoticed, with no successful write. Otherwise it is unchanged. |
| History.SavedAfter | utils/root.go:100-109 | After operations in program order, cfbot.json holds the written configuration when some operation wrote it. It is unusable when the truncating open happened without a write. Otherwise it is unchanged. |
| History.Apply | utils/root.go:100-164 | The lasting effect of one operation. The CA call adds the issued id, and a revoke removes its id. The truncating opens empty cfbot.json or the certificate file. A configuration write fills cfbot.json, and a certificate write fills its file unless it fails. It has no ensures of its own; `History.InstalledAfter`, `History.SavedAfter` and `History.ActiveAfter` characterise its fold. |
| History.ActiveAfter | utils/root.go:139-164 | After any sequence in which nothing is issued after a revoke, the CA holds what it held, plus the new certificate if it was issued, minus every revoked id. |
| History.NoRenewalChangesNothing | utils/root.go:208-215 | A run that finds no renewal due leaves the configuration, the installed certificate and the CA unchanged. |
| History.DoneIssuesAndInstalls | utils/root.go:139-150 | A completed run issued a certificate, opened the certificate file and wrote it. The write succeeded exactly when the environment does not fail it. |
| History.DoneSaves | utils/root.go:156-164 | A completed run wrote the configuration, with the new id, exactly when it was an initial run or a corrected renewal. |
| History.DoneRevokes | utils/root.go:156-164 | A completed renewal revoked exactly the stored id; an initial run revoked nothing. |
| History.DoneEffect | utils/root.go:139-164 | After a completed run, its certificate is active at the CA. It is installed, unless the certificate write failed unnoticed, which leaves the file unusable. The configuration is saved with the new id on an initial run or a corrected renewal, and left alone by a renewal as written. On a renewal, the stored id is revoked. |
| History.FailedSaveEmptiesConfig | utils/root.go:100-109 | A run aborted by a failing configuration write leaves cfbot.json unusable, because the open before it truncated the file. |
| History.InitialRunTracks | utils/root.go:145-162 | A first initial run, on an account with no certificates, leaves exactly one active certificate, whose id is saved. The certificate file holds it exactly when its write did not fail; otherwise the file is unusable. |
| History.FixedRenewalTracks | utils/root.go:145-164 | A completed corrected renewal revokes exactly the certificate whose id was saved, saves the new id, and leaves the new certificate as the single active one. The file holds it unless its write failed unnoticed. |
| History.AsWrittenRenewalLosesTrack | utils/root.go:145-164 | After a completed renewal as written, the new certificate is the only active one, but the saved id still names the revoked one. The file holds the new certificate unless its write failed unnoticed. |
| History.AsWrittenSecondRenewalLeaks | utils/root.go:156-164 | The next renewal as written revokes the already revoked certificate again. Afterwards two certificates stay active, the previous renewal's included. |
| History.FixedCampaignTracks | utils/root.go:145-164 | With renewals saving the new id, any sequence of runs keeps exactly one active certificate, whose id is saved. The certificate file never holds another one: it holds that one or is unusable. It holds that one when it did before and no certificate write failed. Each run reads back the saved settings, gets a fresh id, and completes or finds no renewal due. |
| History.CleanRunCompletes | utils/root.go:200-216 | When no checked operation fails, the flags are valid and both directories exist, an initial run completes, and so does a later run whose certificate is due. |
| History.AsWrittenThreeRuns | utils/root.go:156-164 | Initial run "A", then renewals "B" and "C", as written: cfbot.json still names "A", and the CA holds "B" and "C". |
| History.FixedThreeRuns | utils/root.go:156-164 | The same three runs, corrected: cfbot.json names "C", the only certificate left active. |
| History.LostWriteRevokesAnyway | utils/root.go:145-164 | A renewal whose certificate write fails unnoticed still completes and revokes the tracked certificate "OLD". The certificate file is left unusable, while the CA holds only the new "N". |
| History.UnusableCertificateBlocksRenewal | utils/root.go:167-176 | Once the certificate file is unusable, a later run, whose read, PEM decode or parse of the stored certificate then fails, aborts before it issues anything and leaves the configuration, the certificate file and the CA unchanged; it never renews again. |

## Left out

- Flag and configuration-file loading (cobra, viper, `cmd/`): the resolved settings are an input. The JSON keys of cfbot.json are taken to match the keys `Cfbot` reads, as `Configs.Reload` states.
- `CheckSudo` and the coloured console output: they have no effect on the lifecycle.
- cfssl key and CSR generation, PEM encoding and decoding, x509 parsing, `json.Marshal`, the cloudflare-go client, file opens and writes, and `bash -c`: each is an operation whose success or failure is an input (`Env.fails`). The contents they produce (key, CSR text, certificate, id) are inputs too.
- A nil result from `pem.Decode` at lines 126-127 panics where the block is used: for the CSR at line 129, for the key at line 133. The panic is modelled as a failure of the CSR encoding or the key write. The model does not link a nil decode to that later failure; both are inputs.
- `cloudflare.NewWithUserServiceKey` is folded into the CA call and the revoke call it precedes. Nothing happens between the two.
- `os.Stat` is modelled as a three-way answer (exists, missing, other error), not as a failing operation.
- The text of the cron file, with its `%f` formatting of the buffer, is modelled only as the cron write.
- `time.Now` is an input. `Duration.Hours` is modelled with exact real arithmetic, not float64. The two agree for every duration, since the comparison is with 48 exactly.
- Concurrency, signals and process exit codes: a run is one sequential pass, and an abort is its outcome.
- The model follows the code, including where it falls short of a careful certificate manager:
  - there is no atomic replacement of the key or certificate files, and no lock;
  - a failing post-renew command or revoke aborts the run;
  - the post-renew command runs even when it is empty;
  - the revoke runs even with an empty stored id;
  - the validity is not checked to be positive;
  - the key file is rewritten before the CA is called;
  - the post-renew command and the CA calls have no time-out. A hang leaves a run with no outcome, and the next cron run can overlap it; neither is modelled, since every modelled run ends.
- `RunFixed` is a corrected variant, not code cfbot ships.
- A run aborted part-way leaves the effects of every operation before the failing one, the truncating opens included. The History invariant is proved only for sequences of runs that complete or find no renewal due. An aborted issuance can leave a new certificate active and unrecorded, in both variants.
- The key file and the cron file are not part of `History.World`. Only the configuration, the certificate file and the CA's set are followed across runs.
- A later run that finds cfbot.json unusable stops in `initConfig` (cmd/root.go:89-98), where viper fails to load it and the error goes to `Check`. cmd/root.go is not part of this model, so `History.Renews` describes only later runs that read a usable cfbot.json back. `History.Renews` ties a later run to the certificate file only by requiring that an unusable file makes the read of the stored certificate fail; the NotAfter it reads is a free input, not derived from the file.

## Findings

| source | as written | input that shows it | evidently intended | confidence | as-written member | corrected member |
|---|---|---|---|---|---|---|
| utils/root.go:156-164 | Only an initial run stores the new certificate id. A renewal revokes the stored id but never saves the id of the certificate it has just installed. | An initial run gets certificate "A". Two renewals follow, each due and each reading back cfbot.json, and get "B" then "C". The second renewal revokes "A" again, and "B" is never revoked. | A renewal saves its new certificate id before revoking the previous one, so the next renewal revokes the certificate it replaces. | not executed; high, from the proof and the concrete three-run lemma | History.AsWrittenThreeRuns | History.FixedCampaignTracks |

=== FILE: configs.dfy ===
/** The configuration value one cfbot run works from, and how it is assembled
    from the resolved settings (`Cfbot` in utils/root.go). */
module Configs {

  /** The five fields of `structs.Configs` that the lifecycle code reads or
      writes. The struct declaration in structs/root.go lists only the first
      three; the lifecycle code also uses the last two. */
  datatype Config = Config(
    authServiceKey: string,
    hostnames: seq<string>,
    validity: int,
    postRenewCommand: string,
    previousCertificateId: string)

  /** The resolved values the configuration layer hands to `Cfbot` under the
      keys it reads: flags on an initial run, cfbot.json on later runs. */
  datatype Settings = Settings(
    auth: string,
    hostnames: seq<string>,
    postRenew: string,
    validity: int,
    init: bool,
    previousCertificateId: string)

  /** The configuration a run starts from. The package-level value starts
      zeroed, and the stored previous certificate id is copied into it only
      when the run is not an initial one. */
  function Assemble(s: Settings): Config
  {
    Config(s.auth, s.hostnames, s.validity, s.postRenew,
           if s.init then "" else s.previousCertificateId)
  }

  /** The settings a later, non-initial run reads back from a saved
      cfbot.json (the JSON keys are taken to match the keys `Cfbot` reads). */
  function Reload(saved: Config): (s: Settings)
    ensures !s.init
    ensures Assemble(s) == saved
  {
    Settings(saved.authServiceKey, saved.hostnames, saved.postRenewCommand,
             saved.validity, false, saved.previousCertificateId)
  }
}

=== FILE: effects.dfy ===
/** The operations a cfbot run performs, in the order the code performs them,
    and the abort-on-first-error execution that `Check` gives them.

    Every operation that can end the run is recorded, library calls included
    (PEM decoding, JSON encoding): the run is a trace of these operations
    followed by an outcome. */
module Effects {
  import opened Configs

  datatype Option<+T> = None | Some(value: T)

  /** File permission bits as the three octal digits the code passes. */
  datatype Mode = Mode(owner: nat, group: nat, other: nat)

  /** 0755, for the two directories. */
  const DirMode: Mode := Mode(7, 5, 5)
  /** 0600, for the key and certificate files. */
  const OwnerOnly: Mode := Mode(6, 0, 0)
  /** 0664, for cfbot.json. */
  const ConfigMode: Mode := Mode(6, 6, 4)
  /** 0644, for the cron file. */
  const CronMode: Mode := Mode(6, 4, 4)

  /** The two directories the run needs: `/etc/cfbot` and
      `/etc/cfbot/live`. */
  datatype Dir = CfbotDir | LiveDir

  /** The four files the run writes or reads: `live/key.pem`,
      `live/certificate.pem` and `cfbot.json` under `/etc/cfbot`, and
      `/etc/cron.d/cfbot`. */
  datatype File = KeyFile | CertificateFile | ConfigFile | CronFile

  /** The key part of a cfssl certificate request. */
  datatype KeyRequest = KeyRequest(algorithm: string, size: int)

  /** The cfssl certificate request the CSR is generated from. */
  datatype CsrRequest = CsrRequest(commonName: string, hosts: seq<string>, key: KeyRequest)

  /** The body of the CA's create-origin-certificate call. */
  datatype OriginRequest = OriginRequest(
    hostnames: seq<string>,
    requestType: string,
    requestValidity: int,
    csr: string)

  /** The PEM texts the run decodes. */
  datatype PemSource = StoredCertificate | GeneratedCsr | GeneratedKey

  datatype Op =
    | Stat(dir: Dir)
    | MkdirAll(dir: Dir, mode: Mode)
    | ReadFile(file: File)
    | DecodePem(source: PemSource)
    | ParseCertificate
    | GenerateCsr(csrRequest: CsrRequest)
      /** Opened write-only, created and truncated: the old content is gone. */
    | OpenFile(file: File, mode: Mode)
      /** PEM encoding of the CSR into an in-memory buffer; it fails, by an
          encoding error or by the nil-block panic, when the CSR decode
          found no PEM block. */
    | EncodeCsr
      /** PEM encoding of the private key into the opened key file; it fails
          in the same two ways when the key decode found no block. */
    | WriteKeyPem(file: File)
      /** Client creation with the service key, then the issue request. */
    | CreateOriginCertificate(request: OriginRequest, authServiceKey: string)
    | WriteCertificate(file: File, pem: string)
      /** `bash -c command`, output discarded, exit status checked. */
    | RunCommand(command: string)
    | MarshalConfig(config: Config)
    | WriteConfig(file: File, config: Config)
    | WriteCron(file: File)
      /** Client creation with the service key, then the revoke request. */
    | RevokeOriginCertificate(id: string, authServiceKey: string)

  /** Whether the code looks at the operation's error. `Stat`'s answer is a
      directory state, not an error to check; the two `WriteString` calls
      have their errors dropped; the decodes of the generated CSR and key
      are not checked for a nil block, which panics only where the block is
      first used, in `EncodeCsr` or `WriteKeyPem`. */
  predicate Checked(op: Op)
  {
    !(op.Stat? || op.WriteCertificate? || op.WriteCron? || (op.DecodePem? && op.source != StoredCertificate))
  }

  /** An operation aborts the run when it is checked and the environment
      makes it fail. */
  predicate Fails(op: Op, fails: set<Op>)
  {
    Checked(op) && op in fails
  }

  /** Why a run was aborted: the message `Check` would print. */
  datatype Reason =
    | AuthNotSet
    | HostnamesNotSet
    | FoldersNotSetUp(dir: Dir)
    | Failed(op: Op)

  /** Operations performed so far, and the failure that ended them, if any. */
  datatype Partial = Partial(trace: seq<Op>, failure: Option<Reason>) {

    /** Sequential composition: nothing after a failure runs. */
    function Then(next: Partial): Partial
    {
      if failure.Some? then this else Partial(trace + next.trace, next.failure)
    }
  }

  /** The index of the first operation of the plan that fails, or the
      plan's length when none does. */
  function FirstFailing(plan: seq<Op>, fails: set<Op>): nat
  {
    if plan == [] then 0
    else if Fails(plan[0], fails) then 0
    else 1 + FirstFailing(plan[1..], fails)
  }

  /** `FirstFailing` finds the first failing operation: none before it
      fails, and it fails unless it is the end of the plan. */
  lemma {:induction false} FirstFailingIsFirst(plan: seq<Op>, fails: set<Op>)
    ensures FirstFailing(plan, fails) <= |plan|
    ensures forall i | 0 <= i < FirstFailing(plan, fails) :: !Fails(plan[i], fails)
    ensures FirstFailing(plan, fails) < |plan| ==> Fails(plan[FirstFailing(plan, fails)], fails)
  {
    if plan != [] && !Fails(plan[0], fails) {
      FirstFailingIsFirst(plan[1..], fails);
      forall i | 1 <= i < FirstFailing(plan, fails)
        ensures !Fails(plan[i], fails)
      {
        assert plan[i] == plan[1..][i - 1];
      }
    }
  }

  /** Runs a straight-line stretch of code in which every error goes to
      `Check`: the operations up to and including the first failing one are
      performed, and that one ends the run. */
  function Execute(plan: seq<Op>, fails: set<Op>): Partial
  {
    var k := FirstFailing(plan, fails);
    if k < |plan| then Partial(plan[..k + 1], Some(Failed(plan[k])))
    else Partial(plan, None)
  }

  /** What `Execute` performs: a prefix of the plan in which only the last
      operation may fail; the whole plan with no failure, or a prefix ending
      at the failing operation, which is the reported failure. */
  lemma ExecutePrefix(plan: seq<Op>, fails: set<Op>)
    ensures var p := Execute(plan, fails);
            |p.trace| <= |plan| && p.trace == plan[..|p.trace|]
    ensures var p := Execute(plan, fails);
            forall i | 0 <= i < |p.trace| - 1 :: !Fails(p.trace[i], fails)
    ensures var p := Execute(plan, fails);
            p.failure.None? ==> p.trace == plan && forall i | 0 <= i < |plan| :: !Fails(plan[i], fails)
    ensures var p := Execute(plan, fails);
            p.failure.Some? ==>
              && 0 < |p.trace|
              && Fails(p.trace[|p.trace| - 1], fails)
              && p.failure.value == Failed(p.trace[|p.trace| - 1])
  {
    FirstFailingIsFirst(plan, fails);
  }

  /** Every failure ends the stretch: no operation before the last one
      failed, none failed at all when there is no failure, and a failed
      operation is the last one performed. */
  ghost predicate FailureIsTerminal(p: Partial, fails: set<Op>)
  {
    && (forall i | 0 <= i < |p.trace| - 1 :: !Fails(p.trace[i], fails))
    && (p.failure.None? ==> forall i | 0 <= i < |p.trace| :: !Fails(p.trace[i], fails))
    && (p.failure.Some? && p.failure.value.Failed? ==>
          0 < |p.trace| && p.trace[|p.trace| - 1] == p.failure.value.op && Fails(p.failure.value.op, fails))
  }

  lemma ExecuteFailureIsTerminal(plan: seq<Op>, fails: set<Op>)
    ensures FailureIsTerminal(Execute(plan, fails), fails)
  {
    ExecutePrefix(plan, fails);
  }

  lemma ThenFailureIsTerminal(a: Partial, b: Partial, fails: set<Op>)
    requires FailureIsTerminal(a, fails) && FailureIsTerminal(b, fails)
    ensures FailureIsTerminal(a.Then(b), fails)
  {
    if a.failure.None? {
      var t := a.trace + b.trace;
      assert forall i | |a.trace| <= i < |t| :: t[i] == b.trace[i - |a.trace|];
    }
  }

  /** The position of each operation in the order the code performs them
      (program order): the directory checks, the validity check, then the
      issuance sequence and its mode-specific ending. This is not the order
      of the source text, where the helpers `revokePreviousCertificate`
      and `addCron` come before `generateCertificate`. */
  function Rank(op: Op): nat
  {
    match op
    case Stat(d) => if d == CfbotDir then 0 else 2
    case MkdirAll(d, _) => if d == CfbotDir then 1 else 3
    case ReadFile(_) => 4
    case DecodePem(src) =>
      (match src
       case StoredCertificate => 5
       case GeneratedCsr => 9
       case GeneratedKey => 10)
    case ParseCertificate => 6
    case GenerateCsr(_) => 7
    case OpenFile(f, _) =>
      (match f
       case KeyFile => 8
       case CertificateFile => 14
       case ConfigFile => 18
       case CronFile => 20)
    case EncodeCsr => 11
    case WriteKeyPem(_) => 12
    case CreateOriginCertificate(_, _) => 13
    case WriteCertificate(_, _) => 15
    case RunCommand(_) => 16
    case MarshalConfig(_) => 17
    case WriteConfig(_, _) => 19
    case WriteCron(_) => 21
    case RevokeOriginCertificate(_, _) => 22
  }

  /** The trace follows program order, each operation at most once. */
  ghost predicate Ordered(t: seq<Op>)
  {
    forall i, j | 0 <= i < j < |t| :: Rank(t[i]) < Rank(t[j])
  }

  /** Every operation of the trace has a rank in `[lo, hi)`. */
  ghost predicate RanksIn(t: seq<Op>, lo: nat, hi: nat)
  {
    forall i | 0 <= i < |t| :: lo <= Rank(t[i]) < hi
  }

  /** Each operation ranks below its successor. */
  ghost predicate StepwiseOrdered(t: seq<Op>)
  {
    forall i | 0 <= i < |t| - 1 :: Rank(t[i]) < Rank(t[i + 1])
  }

  lemma {:induction false} StepwiseIsOrdered(t: seq<Op>)
    requires StepwiseOrdered(t)
    ensures Ordered(t)
    ensures 0 < |t| ==> RanksIn(t, Rank(t[0]), Rank(t[|t| - 1]) + 1)
  {
    if |t| > 1 {
      var rest := t[1..];
      assert StepwiseOrdered(rest) by {
        forall i | 0 <= i < |rest| - 1
          ensures Rank(rest[i]) < Rank(rest[i + 1])
        {
          assert rest[i] == t[i + 1] && rest[i + 1] == t[i + 2];
        }
      }
      StepwiseIsOrdered(rest);
      forall i, j | 0 <= i < j < |t|
        ensures Rank(t[i]) < Rank(t[j])
      {
        if i == 0 {
          assert Rank(t[0]) < Rank(t[1]);
          assert t[j] == rest[j - 1];
        } else {
          assert t[i] == rest[i - 1] && t[j] == rest[j - 1];
        }
      }
    }
  }

  /** A run of a plan keeps the plan's order and rank range. */
  lemma ExecuteKeepsOrder(plan: seq<Op>, fails: set<Op>, lo: nat, hi: nat)
    requires Ordered(plan) && RanksIn(plan, lo, hi)
    ensures Ordered(Execute(plan, fails).trace) && RanksIn(Execute(plan, fails).trace, lo, hi)
  {
    var t := Execute(plan, fails).trace;
    ExecutePrefix(plan, fails);
    assert forall i | 0 <= i < |t| :: t[i] == plan[i];
  }

  /** When a prefix of an ordered plan has been performed, every operation
      of the plan ranked below a performed one has been performed too. */
  lemma PrefixContainsEarlier(t: seq<Op>, plan: seq<Op>, a: Op, b: Op)
    requires |t| <= |plan| && t == plan[..|t|]
    requires Ordered(plan) && a in plan && b in t && Rank(a) < Rank(b)
    ensures a in t
  {
    var i :| 0 <= i < |plan| && plan[i] == a;
    var j :| 0 <= j < |t| && t[j] == b;
    assert plan[j] == b;
    assert t[i] == a;
  }

  /** When a prefix of an ordered plan has been performed and a step of
      the plan is in it, every earlier step is in it too. */
  lemma PrefixHasEarlier(t: seq<Op>, plan: seq<Op>, i: int, j: int)
    requires |t| <= |plan| && t == plan[..|t|] && Ordered(plan)
    requires 0 <= i < j < |plan| && plan[j] in t
    ensures plan[i] in t
  {
    var k :| 0 <= k < |t| && t[k] == plan[j];
    assert plan[k] == plan[j];
    assert t[i] == plan[i];
  }

  /** A step whose error the code drops never ends a stretch: once it is
      performed, so is the next step of the plan. */
  lemma UncheckedContinues(plan: seq<Op>, fails: set<Op>, j: int)
    requires Ordered(plan) && 0 <= j < |plan| - 1 && !Checked(plan[j])
    requires plan[j] in Execute(plan, fails).trace
    ensures plan[j + 1] in Execute(plan, fails).trace
  {
    var t := Execute(plan, fails).trace;
    ExecutePrefix(plan, fails);
    var k :| 0 <= k < |t| && t[k] == plan[j];
    assert plan[k] == plan[j];
    assert t[j + 1] == plan[j + 1];
  }

  /** In an ordered trace nothing ranks above the last operation. */
  lemma LastRanksHighest(t: seq<Op>)
    requires Ordered(t) && 0 < |t|
    ensures forall op | op in t :: Rank(op) <= Rank(t[|t| - 1])
  {
    forall op | op in t
      ensures Rank(op) <= Rank(t[|t| - 1])
    {
      var k :| 0 <= k < |t| && t[k] == op;
    }
  }

  lemma AppendRanks(a: seq<Op>, b: seq<Op>, lo: nat, mid: nat, hi: nat)
    requires RanksIn(a, lo, mid) && RanksIn(b, mid, hi) && lo <= mid <= hi
    ensures RanksIn(a + b, lo, hi)
  {
    var t := a + b;
    assert forall i | |a| <= i < |t| :: t[i] == b[i - |a|];
  }

  /** Appending an ordered sequence whose ranks all lie above those of an
      ordered sequence keeps it ordered. */
  lemma AppendKeepsOrder(a: seq<Op>, b: seq<Op>, lo: nat, mid: nat, hi: nat)
    requires Ordered(a) && RanksIn(a, lo, mid)
    requires Ordered(b) && RanksIn(b, mid, hi)
    requires lo <= mid <= hi
    ensures Ordered(a + b) && RanksIn(a + b, lo, hi)
  {
    var t := a + b;
    assert forall i | |a| <= i < |t| :: t[i] == b[i - |a|];
  }

  /** A trace made of a prefix and a rest shows the prefix first and only
      the rest's ranks after it. */
  lemma PrefixThenRanks(t: seq<Op>, a: seq<Op>, b: seq<Op>, lo: nat, hi: nat)
    requires t == a + b && RanksIn(b, lo, hi)
    ensures |a| <= |t| && t[..|a|] == a
    ensures forall i | |a| <= i < |t| :: lo <= Rank(t[i]) < hi
  {
    assert t[..|a|] == a;
    forall i | |a| <= i < |t|
      ensures lo <= Rank(t[i]) < hi
    {
      assert t[i] == b[i - |a|];
    }
  }

  /** Composing two ordered stretches with consecutive rank ranges gives an
      ordered stretch. */
  lemma ThenKeepsOrder(a: Partial, b: Partial, lo: nat, mid: nat, hi: nat)
    requires Ordered(a.trace) && RanksIn(a.trace, lo, mid)
    requires Ordered(b.trace) && RanksIn(b.trace, mid, hi)
    requires lo <= mid <= hi
    ensures Ordered(a.Then(b).trace) && RanksIn(a.Then(b).trace, lo, hi)
  {
    if a.failure.None? {
      AppendKeepsOrder(a.trace, b.trace, lo, mid, hi);
    }
  }
}

=== FILE: history.dfy ===
/** Several cfbot runs in a row on one machine against one Cloudflare
    account: what each run leaves behind in cfbot.json, in the live
    certificate file and among the certificates the CA holds unrevoked, and
    how a renewal as written loses track of the certificate it issued. */
module History {
  import opened Configs
  import opened Validity
  import opened Effects
  import opened Lifecycle
  import opened Issuing

  /** What a file the run rewrites holds when a later run reads it: a
      value, or nothing usable. A file is unusable when it is missing, when
      it was emptied by an open that truncates and not written again, or
      when a write to it failed part-way. */
  datatype Contents<T> = Unusable | Holds(value: T)

  /** What outlasts a run: the configuration in cfbot.json, the id of the
      certificate in the live certificate file, and the ids of the
      certificates the CA holds unrevoked. */
  datatype World = World(saved: Contents<Config>, installed: Contents<string>, active: set<string>)

  /** The lasting effect of one operation that took place. The CA issuing
      and revoking change its set; opening cfbot.json or the certificate
      file truncates it; writing the configuration fills cfbot.json; writing
      the certificate fills the certificate file, unless that write fails,
      which the code does not notice. */
  function Apply(w: World, env: Env, op: Op): World
  {
    match op
    case CreateOriginCertificate(_, _) => w.(active := w.active + {env.issued.id})
    case OpenFile(f, _) =>
      if f == CertificateFile then w.(installed := Unusable)
      else if f == ConfigFile then w.(saved := Unusable)
      else w
    case WriteCertificate(_, _) => w.(installed := if op in env.fails then Unusable else Holds(env.issued.id))
    case WriteConfig(_, cfg) => w.(saved := Holds(cfg))
    case RevokeOriginCertificate(id, _) => w.(active := w.active - {id})
    case _ => w
  }

  /** The lasting effect of a sequence of operations, in order. */
  function ApplyAll(w: World, env: Env, ops: seq<Op>): World
    decreases |ops|
  {
    if ops == [] then w else ApplyAll(Apply(w, env, ops[0]), env, ops[1..])
  }

  /** The operations of a run that took effect: all of them, except the
      failing operation that aborted it. */
  function Performed(r: RunResult): seq<Op>
  {
    if r.outcome.Aborted? && r.outcome.reason.Failed? && 0 < |r.trace| then r.trace[..|r.trace| - 1]
    else r.trace
  }

  /** The world after one run. */
  function Next(w: World, env: Env, savesRenewedId: bool): World
  {
    ApplyAll(w, env, Performed(Orchestrate(env, savesRenewedId)))
  }

  predicate Issues(ops: seq<Op>)
  {
    exists op | op in ops :: op.CreateOriginCertificate?
  }

  /** Some operation opened the file, truncating it. */
  predicate Opens(ops: seq<Op>, f: File)
  {
    exists op | op in ops :: op.OpenFile? && op.file == f
  }

  /** Some operation tried to write the certificate file. */
  predicate WritesCertificate(ops: seq<Op>)
  {
    exists op | op in ops :: op.WriteCertificate?
  }

  /** Some operation wrote the certificate file without failing. */
  predicate Installs(ops: seq<Op>, fails: set<Op>)
  {
    exists op | op in ops :: op.WriteCertificate? && op !in fails
  }

  predicate Saves(ops: seq<Op>)
  {
    exists op | op in ops :: op.WriteConfig?
  }

  function RevokedIds(ops: seq<Op>): set<string>
  {
    set op | op in ops && op.RevokeOriginCertificate? :: op.id
  }

  /** No certificate is issued after one has been revoked. */
  ghost predicate IssuesBeforeRevoking(ops: seq<Op>)
  {
    forall i, j | 0 <= i < j < |ops| :: ops[i].RevokeOriginCertificate? ==> !ops[j].CreateOriginCertificate?
  }

  lemma OrderedIssuesBeforeRevoking(ops: seq<Op>)
    requires Ordered(ops)
    ensures IssuesBeforeRevoking(ops)
  {
    forall i, j | 0 <= i < j < |ops| && ops[i].RevokeOriginCertificate?
      ensures !ops[j].CreateOriginCertificate?
    {
      assert Rank(ops[i]) < Rank(ops[j]);
    }
  }

  /** The rest of an ordered sequence is ordered and ranks above its
      first operation. */
  lemma OrderedTail(ops: seq<Op>)
    requires Ordered(ops) && ops != []
    ensures Ordered(ops[1..])
    ensures forall op | op in ops[1..] :: Rank(ops[0]) < Rank(op)
  {
    var rest := ops[1..];
    forall i, j | 0 <= i < j < |rest|
      ensures Rank(rest[i]) < Rank(rest[j])
    {
      assert rest[i] == ops[i + 1] && rest[j] == ops[j + 1];
    }
    forall op | op in rest
      ensures Rank(ops[0]) < Rank(op)
    {
      var k :| 0 <= k < |rest| && rest[k] == op;
      assert ops[k + 1] == op;
    }
  }

  /** The operations of a non-empty sequence are its first and those of
      its rest. */
  lemma SplitMembers(ops: seq<Op>)
    requires ops != []
    ensures forall op | op in ops :: op == ops[0] || op in ops[1..]
    ensures forall op | op in ops[1..] :: op in ops
  {
    assert ops == [ops[0]] + ops[1..];
  }

  /** In program order the certificate file is opened before it is
      written. It ends up holding the run's certificate when a write to it
      succeeded; it is left unusable when it was opened, or written with a
      failure, and not written successfully; otherwise it is left alone. */
  lemma {:induction false} InstalledAfter(w: World, env: Env, ops: seq<Op>)
    requires Ordered(ops)
    ensures ApplyAll(w, env, ops).installed
            == if Installs(ops, env.fails) then Holds(env.issued.id)
               else if Opens(ops, CertificateFile) || WritesCertificate(ops) then Unusable
               else w.installed
    decreases |ops|
  {
    if ops != [] {
      var rest := ops[1..];
      OrderedTail(ops);
      InstalledAfter(Apply(w, env, ops[0]), env, rest);
      SplitMembers(ops);
      if ops[0].WriteCertificate? {
        assert !Installs(rest, env.fails) && !Opens(rest, CertificateFile) && !WritesCertificate(rest);
      }
    }
  }

  /** In program order cfbot.json is opened before it is written. It ends
      up holding `cfg` when the operations wrote it, every write being of
      `cfg`; it is left unusable when it was opened and not written; and it
      is left alone otherwise. */
  lemma {:induction false} SavedAfter(w: World, env: Env, ops: seq<Op>, cfg: Config)
    requires Ordered(ops)
    requires forall op | op in ops && op.WriteConfig? :: op.config == cfg
    ensures ApplyAll(w, env, ops).saved
            == if Saves(ops) then Holds(cfg) else if Opens(ops, ConfigFile) then Unusable else w.saved
    decreases |ops|
  {
    if ops != [] {
      var rest := ops[1..];
      OrderedTail(ops);
      SavedAfter(Apply(w, env, ops[0]), env, rest, cfg);
      SplitMembers(ops);
      if ops[0].WriteConfig? {
        assert !Saves(rest) && !Opens(rest, ConfigFile);
      }
    }
  }

  /** The CA ends up holding the certificates it held, plus the run's
      certificate if it was issued, minus every id revoked. */
  lemma {:induction false} ActiveAfter(w: World, env: Env, ops: seq<Op>)
    requires IssuesBeforeRevoking(ops)
    ensures ApplyAll(w, env, ops).active
            == (w.active + (if Issues(ops) then {env.issued.id} else {})) - RevokedIds(ops)
    decreases |ops|
  {
    if ops != [] {
      var rest := ops[1..];
      assert IssuesBeforeRevoking(rest) by {
        forall i, j | 0 <= i < j < |rest| && rest[i].RevokeOriginCertificate?
          ensures !rest[j].CreateOriginCertificate?
        {
          assert rest[i] == ops[i + 1] && rest[j] == ops[j + 1];
        }
      }
      ActiveAfter(Apply(w, env, ops[0]), env, rest);
      assert ops == [ops[0]] + rest;
      assert Issues(ops) <==> ops[0].CreateOriginCertificate? || Issues(rest);
      assert RevokedIds(ops) == RevokedIds([ops[0]]) + RevokedIds(rest);
      if ops[0].RevokeOriginCertificate? {
        assert !Issues(rest) by {
          forall op | op in rest
            ensures !op.CreateOriginCertificate?
          {
            var j :| 0 <= j < |rest| && rest[j] == op;
            assert ops[j + 1] == op;
          }
        }
      }
    }
  }

  /** Operations ranked before the CA call change nothing that lasts. */
  lemma {:induction false} InertPrefix(w: World, env: Env, ops: seq<Op>)
    requires forall op | op in ops :: Rank(op) < 13
    ensures ApplyAll(w, env, ops) == w
  {
    if ops != [] {
      assert ops[0] in ops;
      assert Apply(w, env, ops[0]) == w;
      InertPrefix(w, env, ops[1..]);
    }
  }

  /** A run that finds no renewal needed leaves everything as it was. */
  lemma NoRenewalChangesNothing(w: World, env: Env, savesRenewedId: bool)
    requires Orchestrate(env, savesRenewedId).outcome == NoRenewalNeeded
    ensures Next(w, env, savesRenewedId) == w
  {
    var t := Orchestrate(env, savesRenewedId).trace;
    SegmentOutcome(env, savesRenewedId);
    forall op | op in t
      ensures Rank(op) < 13
    {
      RunContains(env, savesRenewedId, op);
    }
    InertPrefix(w, env, t);
  }

  /** The certificate write of a run: the CA's certificate into the live
      certificate file. The code drops its error. */
  function CertificateWrite(env: Env): Op
  {
    WriteCertificate(CertificateFile, env.issued.certificate)
  }

  /** A completed run issued its certificate, opened the certificate file
      and wrote it; the write succeeded exactly when it is not one of the
      environment's failures. */
  lemma DoneIssuesAndInstalls(env: Env, savesRenewedId: bool)
    requires Orchestrate(env, savesRenewedId).outcome == Done
    ensures var t := Orchestrate(env, savesRenewedId).trace;
            Issues(t) && Opens(t, CertificateFile) && WritesCertificate(t)
    ensures Installs(Orchestrate(env, savesRenewedId).trace, env.fails) <==> CertificateWrite(env) !in env.fails
  {
    var t := Orchestrate(env, savesRenewedId).trace;
    DoneWritesCertificate(env, savesRenewedId);
    forall op | op in t && op.WriteCertificate?
      ensures op == CertificateWrite(env)
    {
      OpCarries(env, savesRenewedId, op);
    }
  }

  /** A completed run saved the configuration, with the new certificate's
      id, exactly when it was an initial run or a corrected renewal. */
  lemma DoneSaves(env: Env, savesRenewedId: bool)
    requires Orchestrate(env, savesRenewedId).outcome == Done
    ensures var t := Orchestrate(env, savesRenewedId).trace;
            forall op | op in t && op.WriteConfig? :: op.config == RenewedConfig(env)
    ensures Saves(Orchestrate(env, savesRenewedId).trace) <==> env.settings.init || savesRenewedId
  {
    var t := Orchestrate(env, savesRenewedId).trace;
    forall op | op in t && op.WriteConfig?
      ensures op.config == RenewedConfig(env)
    {
      OpCarries(env, savesRenewedId, op);
    }
    if env.settings.init {
      InitialRunEnding(env, savesRenewedId);
    } else if savesRenewedId {
      RenewalEndingFixed(env);
    } else {
      RenewalEnding(env);
    }
  }

  /** A completed renewal revoked the stored id and nothing else; an
      initial run revokes nothing. */
  lemma DoneRevokes(env: Env, savesRenewedId: bool)
    requires Orchestrate(env, savesRenewedId).outcome == Done
    ensures RevokedIds(Orchestrate(env, savesRenewedId).trace)
            == if env.settings.init then {} else {env.settings.previousCertificateId}
  {
    var t := Orchestrate(env, savesRenewedId).trace;
    if env.settings.init {
      InitialRunNeverRevokes(env, savesRenewedId);
    } else {
      forall op | op in t && op.RevokeOriginCertificate?
        ensures op.id == env.settings.previousCertificateId
      {
        OpCarries(env, savesRenewedId, op);
      }
      DoneRunsWholePlan(env, savesRenewedId);
      PlanShape(env, savesRenewedId);
      assert t[|t| - 1] in t;
    }
  }

  /** What a completed run leaves behind: its certificate held by the CA
      and installed, unless the certificate write failed unnoticed, which
      leaves the certificate file unusable; on an initial run, and on a
      corrected renewal, the configuration saved with that certificate's
      id; on a renewal, the stored id revoked. A renewal as written leaves
      cfbot.json alone. */
  lemma DoneEffect(w: World, env: Env, savesRenewedId: bool)
    requires Orchestrate(env, savesRenewedId).outcome == Done
    ensures var w' := Next(w, env, savesRenewedId);
            && w'.installed == (if CertificateWrite(env) in env.fails then Unusable else Holds(env.issued.id))
            && w'.saved == (if env.settings.init || savesRenewedId then Holds(RenewedConfig(env)) else w.saved)
            && w'.active
               == (w.active + {env.issued.id})
                  - (if env.settings.init then {} else {env.settings.previousCertificateId})
  {
    var t := Orchestrate(env, savesRenewedId).trace;
    assert Performed(Orchestrate(env, savesRenewedId)) == t;
    DoneIssuesAndInstalls(env, savesRenewedId);
    DoneSaves(env, savesRenewedId);
    DoneRevokes(env, savesRenewedId);
    if !env.settings.init && !savesRenewedId {
      RenewalEnding(env);
      assert !Opens(t, ConfigFile);
    }
    OrchestrateOrdered(env, savesRenewedId);
    OrderedIssuesBeforeRevoking(t);
    InstalledAfter(w, env, t);
    SavedAfter(w, env, t, RenewedConfig(env));
    ActiveAfter(w, env, t);
  }

  /** A run aborted by a failing configuration write leaves cfbot.json
      unusable: the open before it has already truncated the file. */
  lemma FailedSaveEmptiesConfig(w: World, env: Env, savesRenewedId: bool)
    requires var r := Orchestrate(env, savesRenewedId);
             r.outcome.Aborted? && r.outcome.reason.Failed? && r.outcome.reason.op.WriteConfig?
    ensures Next(w, env, savesRenewedId).saved == Unusable
  {
    var t := Orchestrate(env, savesRenewedId).trace;
    FailedSaveTrace(env, savesRenewedId);
    OrchestrateOrdered(env, savesRenewedId);
    EmptiedBeforeWrite(w, env, t);
  }

  /** A run aborted by the configuration write had opened cfbot.json, and
      the write is its last operation. */
  lemma FailedSaveTrace(env: Env, savesRenewedId: bool)
    requires var r := Orchestrate(env, savesRenewedId);
             r.outcome.Aborted? && r.outcome.reason.Failed? && r.outcome.reason.op.WriteConfig?
    ensures var r := Orchestrate(env, savesRenewedId);
            && 0 < |r.trace| && r.trace[|r.trace| - 1].WriteConfig?
            && Performed(r) == r.trace[..|r.trace| - 1]
    ensures OpenFile(ConfigFile, ConfigMode) in Orchestrate(env, savesRenewedId).trace
  {
    FailureEndsRun(env, savesRenewedId);
    FailedSaveOpened(env, savesRenewedId, Orchestrate(env, savesRenewedId).outcome.reason.op);
  }

  lemma FailedSaveOpened(env: Env, savesRenewedId: bool, f: Op)
    requires Orchestrate(env, savesRenewedId).outcome == Aborted(Failed(f)) && f.WriteConfig?
    ensures OpenFile(ConfigFile, ConfigMode) in Orchestrate(env, savesRenewedId).trace
  {
    AbortedInIssuance(env, savesRenewedId);
    IssuanceOpInPlan(env, savesRenewedId, f);
    SaveOpensFirst(env, savesRenewedId, f);
  }

  /** A plan that writes the configuration opens cfbot.json first. */
  lemma SaveOpensFirst(env: Env, savesRenewedId: bool, f: Op)
    requires f in PlanOf(env, savesRenewedId) && f.WriteConfig?
    ensures OpenFile(ConfigFile, ConfigMode) in PlanOf(env, savesRenewedId)
    ensures Rank(OpenFile(ConfigFile, ConfigMode)) < Rank(f)
  {
    PlanShape(env, savesRenewedId);
    var save := SavePlan(RenewedConfig(env));
    assert save[1] == OpenFile(ConfigFile, ConfigMode);
  }

  /** Of an ordered sequence that opens cfbot.json and ends with the
      configuration write, everything but that write leaves cfbot.json
      unusable. */
  lemma EmptiedBeforeWrite(w: World, env: Env, t: seq<Op>)
    requires Ordered(t) && 0 < |t| && t[|t| - 1].WriteConfig?
    requires OpenFile(ConfigFile, ConfigMode) in t
    ensures ApplyAll(w, env, t[..|t| - 1]).saved == Unusable
  {
    var p := t[..|t| - 1];
    var k :| 0 <= k < |t| && t[k] == OpenFile(ConfigFile, ConfigMode);
    assert k < |t| - 1;
    assert p[k] == t[k];
    assert Opens(p, ConfigFile);
    forall i, j | 0 <= i < j < |p|
      ensures Rank(p[i]) < Rank(p[j])
    {
      assert p[i] == t[i] && p[j] == t[j];
    }
    forall op | op in p
      ensures !op.WriteConfig?
    {
      var i :| 0 <= i < |p| && p[i] == op;
      assert t[i] == op;
    }
    SavedAfter(w, env, p, t[|t| - 1].config);
  }

  /** The certificates are accounted for: cfbot.json holds a configuration,
      and the CA holds unrevoked exactly the certificate whose id it names,
      the one the next renewal revokes. */
  predicate Accounted(w: World)
  {
    w.saved.Holds? && w.active == {w.saved.value.previousCertificateId}
  }

  /** Accounted for, and the certificate installed is that certificate. */
  predicate Tracked(w: World)
  {
    Accounted(w) && w.installed == Holds(w.saved.value.previousCertificateId)
  }

  /** Accounted for, and the certificate file holds no other certificate:
      it holds that one, or was left unusable by a write that failed
      unnoticed. */
  predicate NoStrayCertificate(w: World)
  {
    Accounted(w) && (w.installed == Holds(w.saved.value.previousCertificateId) || w.installed == Unusable)
  }

  /** An id the CA has not handed out before: neither one it holds nor the
      one cfbot.json names, which may already be revoked. */
  predicate FreshId(w: World, env: Env)
  {
    env.issued.id !in w.active && (w.saved.Holds? ==> env.issued.id != w.saved.value.previousCertificateId)
  }

  /** The first, initial run on an account with no certificates leaves
      them accounted for, with the new certificate installed exactly when
      its write did not fail. */
  lemma InitialRunTracks(w: World, env: Env, savesRenewedId: bool)
    requires env.settings.init && w.active == {}
    requires Orchestrate(env, savesRenewedId).outcome == Done
    ensures NoStrayCertificate(Next(w, env, savesRenewedId))
    ensures Tracked(Next(w, env, savesRenewedId)) <==> CertificateWrite(env) !in env.fails
    ensures Next(w, env, savesRenewedId).saved == Holds(RenewedConfig(env))
  {
    DoneEffect(w, env, savesRenewedId);
  }

  /** A later run on what the previous runs left: it reads back the saved
      settings, and when the certificate file is unusable its read of the
      stored certificate fails, for a missing file at line 169, a file with
      no PEM block at lines 172-173, or a partial one at line 175. */
  predicate Renews(w: World, env: Env)
  {
    && w.saved.Holds? && env.settings == Reload(w.saved.value)
    && (w.installed == Unusable ==> Execute(ReadPlan, env.fails).failure.Some?)
  }

  /** Once the certificate file is unusable, every later run aborts: it
      cannot read the stored certificate, so it never renews again. */
  lemma UnusableCertificateBlocksRenewal(w: World, env: Env, savesRenewedId: bool)
    requires Renews(w, env) && w.installed == Unusable
    ensures Orchestrate(env, savesRenewedId).outcome.Aborted?
    ensures Next(w, env, savesRenewedId) == w
  {
    var r := Orchestrate(env, savesRenewedId);
    SegmentOutcome(env, savesRenewedId);
    assert !ReachesIssuance(env);
    var p := Performed(r);
    forall op | op in p
      ensures Rank(op) < 13
    {
      assert op in r.trace;
      RunContains(env, savesRenewedId, op);
    }
    InertPrefix(w, env, p);
  }

  /** The certificate file after a completed run: the new certificate, or
      nothing usable when its write failed unnoticed. */
  function InstalledBy(env: Env): Contents<string>
  {
    if CertificateWrite(env) in env.fails then Unusable else Holds(env.issued.id)
  }

  /** A corrected renewal that completes revokes exactly the certificate it
      replaces and keeps the certificates accounted for; the new one is
      installed unless its write failed. */
  lemma FixedRenewalTracks(w: World, env: Env)
    requires Accounted(w) && Renews(w, env) && FreshId(w, env)
    requires RunFixed(env).outcome == Done
    ensures Accounted(Next(w, env, true))
    ensures Next(w, env, true).saved == Holds(RenewedConfig(env))
    ensures RevokedIds(RunFixed(env).trace) == {w.saved.value.previousCertificateId}
    ensures Next(w, env, true).installed == InstalledBy(env)
  {
    DoneEffect(w, env, true);
    DoneRevokes(env, true);
  }

  /** A renewal as written that completes revokes the certificate it
      replaces, but leaves the replaced id in cfbot.json: afterwards the
      saved id names a revoked certificate and the new one is recorded
      nowhere. */
  lemma AsWrittenRenewalLosesTrack(w: World, env: Env)
    requires Accounted(w) && Renews(w, env) && FreshId(w, env)
    requires Run(env).outcome == Done
    ensures var w' := Next(w, env, false);
            && w'.active == {env.issued.id}
            && w'.installed == InstalledBy(env)
            && w'.saved == w.saved
            && w'.saved.value.previousCertificateId !in w'.active
  {
    DoneEffect(w, env, false);
  }

  /** The next renewal as written then revokes the already revoked
      certificate a second time, and the one it replaces stays issued and
      unrevoked for good. */
  lemma AsWrittenSecondRenewalLeaks(w: World, first: Env, second: Env)
    requires Accounted(w) && Renews(w, first) && FreshId(w, first)
    requires Run(first).outcome == Done
    requires Renews(Next(w, first, false), second) && FreshId(Next(w, first, false), second)
    requires Run(second).outcome == Done
    ensures RevokedIds(Run(second).trace) == {w.saved.value.previousCertificateId}
    ensures Next(Next(w, first, false), second, false).active == {first.issued.id, second.issued.id}
    ensures first.issued.id != second.issued.id
  {
    var w1 := Next(w, first, false);
    AsWrittenRenewalLosesTrack(w, first);
    DoneEffect(w1, second, false);
    DoneRevokes(second, false);
  }

  /** Runs that each start from what the previous ones left: the settings
      are read back from the saved configuration, the CA hands out an id it
      has not used before, and each run completes or finds no renewal
      needed. */
  ghost predicate Campaign(w: World, envs: seq<Env>, savesRenewedId: bool)
    decreases |envs|
  {
    envs == [] ||
    (&& Renews(w, envs[0]) && FreshId(w, envs[0])
     && Orchestrate(envs[0], savesRenewedId).outcome in {Done, NoRenewalNeeded}
     && Campaign(Next(w, envs[0], savesRenewedId), envs[1..], savesRenewedId))
  }

  /** The world after a sequence of runs. */
  function Replay(w: World, envs: seq<Env>, savesRenewedId: bool): World
    decreases |envs|
  {
    if envs == [] then w else Replay(Next(w, envs[0], savesRenewedId), envs[1..], savesRenewedId)
  }

  /** With renewals saving the new id, the certificates stay accounted for
      however many runs follow, and no stray certificate is ever installed;
      the installed one is the tracked one when it was before and no
      certificate write failed. */
  lemma {:induction false} FixedCampaignTracks(w: World, envs: seq<Env>)
    requires NoStrayCertificate(w) && Campaign(w, envs, true)
    ensures NoStrayCertificate(Replay(w, envs, true))
    ensures Tracked(w) && (forall e | e in envs :: CertificateWrite(e) !in e.fails) ==> Tracked(Replay(w, envs, true))
    decreases |envs|
  {
    if envs != [] {
      var w' := Next(w, envs[0], true);
      FixedRunTracks(w, envs[0]);
      FixedCampaignTracks(w', envs[1..]);
      assert envs[0] in envs;
      assert forall e | e in envs[1..] :: e in envs;
    }
  }

  lemma FixedRunTracks(w: World, env: Env)
    requires NoStrayCertificate(w) && Renews(w, env) && FreshId(w, env)
    requires RunFixed(env).outcome in {Done, NoRenewalNeeded}
    ensures NoStrayCertificate(Next(w, env, true))
    ensures Tracked(w) && CertificateWrite(env) !in env.fails ==> Tracked(Next(w, env, true))
  {
    if RunFixed(env).outcome == Done {
      FixedRenewalTracks(w, env);
    } else {
      NoRenewalChangesNothing(w, env, true);
    }
  }

  /** A run in which no checked operation fails, both directories exist
      and the flags are set completes when it is an initial run or the
      certificate is due. */
  lemma CleanRunCompletes(env: Env, savesRenewedId: bool)
    requires forall op | op in env.fails :: !Checked(op)
    requires FlagsValid(env)
    requires env.cfbotDir == Exists && env.liveDir == Exists
    requires env.settings.init || NeedsRenewal(Sub(env.notAfter, env.now))
    ensures Orchestrate(env, savesRenewedId).outcome == Done
  {
    ExecutePrefix(ReadPlan, env.fails);
    ExecutePrefix(PlanOf(env, savesRenewedId), env.fails);
    SegmentOutcome(env, savesRenewedId);
  }

  /** A machine with nothing installed yet and an account with no
      certificates. */
  const Fresh: World := World(Unusable, Unusable, {})

  /** The settings of the first, initial run. */
  const FirstSettings: Settings := Settings("service-key", ["example.com"], "", 365, true, "")

  /** One run with a certificate already at its expiry, the CA answering
      with `id`, and the given operations failing. */
  function Deployment(settings: Settings, id: string, fails: set<Op>): Env
  {
    Env(settings, Exists, Exists, 0, 0, "csr", Issued(id, "certificate " + id), fails)
  }

  /** An initial run that gets certificate "A", then two renewals that get
      "B" and "C", each reading back what the one before saved, with
      nothing failing. */
  function ThreeRuns(savesRenewedId: bool): World
  {
    var w1 := Next(Fresh, Deployment(FirstSettings, "A", {}), savesRenewedId);
    var w2 := Next(w1, Deployment(ReadBack(w1), "B", {}), savesRenewedId);
    Next(w2, Deployment(ReadBack(w2), "C", {}), savesRenewedId)
  }

  /** The settings the next run of the example reads back from cfbot.json;
      the example never leaves the file unusable. */
  function ReadBack(w: World): Settings
  {
    if w.saved.Holds? then Reload(w.saved.value) else FirstSettings
  }

  /** The configuration the three runs save, naming `id`. */
  function SavedAs(id: string): Contents<Config>
  {
    Holds(Config("service-key", ["example.com"], 365, "", id))
  }

  /** As written, after the three runs cfbot.json still names "A", which
      the first renewal revoked, and "B" stays unrevoked next to "C". */
  lemma AsWrittenThreeRuns()
    ensures ThreeRuns(false) == World(SavedAs("A"), Holds("C"), {"B", "C"})
  {
    ThreeRunsEffect(false);
  }

  /** Corrected, after the three runs cfbot.json names "C", the only
      certificate left unrevoked. */
  lemma FixedThreeRuns()
    ensures ThreeRuns(true) == World(SavedAs("C"), Holds("C"), {"C"})
  {
    ThreeRunsEffect(true);
  }

  lemma ThreeRunsEffect(savesRenewedId: bool)
    ensures var w := ThreeRuns(savesRenewedId);
            && w.installed == Holds("C")
            && w.saved == SavedAs(if savesRenewedId then "C" else "A")
            && w.active == if savesRenewedId then {"C"} else {"B", "C"}
  {
    var e0 := Deployment(FirstSettings, "A", {});
    CleanRunCompletes(e0, savesRenewedId);
    DoneEffect(Fresh, e0, savesRenewedId);
    var w1 := Next(Fresh, e0, savesRenewedId);
    assert w1.active == {"A"};
    var e1 := Deployment(ReadBack(w1), "B", {});
    assert NeedsRenewal(Sub(e1.notAfter, e1.now));
    CleanRunCompletes(e1, savesRenewedId);
    DoneEffect(w1, e1, savesRenewedId);
    var w2 := Next(w1, e1, savesRenewedId);
    assert w2.active == {"B"};
    var e2 := Deployment(ReadBack(w2), "C", {});
    CleanRunCompletes(e2, savesRenewedId);
    DoneEffect(w2, e2, savesRenewedId);
  }

  /** A renewal whose certificate write fails unnoticed: the machine had
      certificate "OLD" installed and tracked, the CA answers with "N". */
  function LostWriteRenewal(): Env
  {
    var saved := Config("service-key", ["example.com"], 365, "", "OLD");
    var env := Deployment(Reload(saved), "N", {});
    env.(fails := {CertificateWrite(env)})
  }

  /** The run still completes and revokes "OLD", but the certificate file
      is left unusable, so the machine has no valid certificate installed
      while the only one the CA holds is "N". */
  lemma LostWriteRevokesAnyway()
    ensures var w := World(SavedAs("OLD"), Holds("OLD"), {"OLD"});
            && Tracked(w)
            && Run(LostWriteRenewal()).outcome == Done
            && RevokedIds(Run(LostWriteRenewal()).trace) == {"OLD"}
            && Next(w, LostWriteRenewal(), false) == World(SavedAs("OLD"), Unusable, {"N"})
  {
    var env := LostWriteRenewal();
    var w := World(SavedAs("OLD"), Holds("OLD"), {"OLD"});
    assert NeedsRenewal(Sub(env.notAfter, env.now));
    CleanRunCompletes(env, false);
    DoneEffect(w, env, false);
    DoneRevokes(env, false);
  }
}

=== FILE: issuance.dfy ===
/** What `generateCertificate` and the helpers it calls do within a run:
    the order of the key, CA, certificate and hook steps, the contents of
    every request and file write, how a failure part-way leaves things, and
    the two mode-specific endings. */
module Issuing {
  import opened Configs
  import opened Validity
  import opened Effects
  import opened Lifecycle

  /** The plan `generateCertificate` follows on this run. */
  function PlanOf(env: Env, savesRenewedId: bool): seq<Op>
  {
    IssuePlan(Assemble(env.settings), env.settings.init, env, savesRenewedId)
  }

  /** The configuration saved after an issue: the run's configuration with
      the new certificate's id. */
  function RenewedConfig(env: Env): Config
  {
    Assemble(env.settings).(previousCertificateId := env.issued.id)
  }

  /** What each operation of a run must carry, stated field by field from
      the settings and the environment: the CSR request names the hostnames
      with a 2048-bit RSA key; the CA request asks for an `origin-rsa`
      certificate for the hostnames and validity, with the generated CSR,
      under the auth key; the certificate written is the one the CA
      returned; the hook is the configured command; the configuration saved
      holds the new certificate's id; a revoke names the stored id; files
      and directories get their fixed paths and modes. */
  predicate Carries(env: Env, op: Op)
  {
    match op
    case Stat(_) => true
    case MkdirAll(_, mode) => mode == DirMode
    case ReadFile(f) => f == CertificateFile
    case DecodePem(_) => true
    case ParseCertificate => true
    case GenerateCsr(req) =>
      && req.commonName == "Cloudflare" && req.hosts == env.settings.hostnames
      && req.key == KeyRequest("rsa", 2048)
    case OpenFile(f, mode) =>
      (match f
       case KeyFile => mode == OwnerOnly
       case CertificateFile => mode == OwnerOnly
       case ConfigFile => mode == ConfigMode
       case CronFile => mode == CronMode)
    case EncodeCsr => true
    case WriteKeyPem(f) => f == KeyFile
    case CreateOriginCertificate(req, key) =>
      && req.hostnames == env.settings.hostnames && req.requestType == "origin-rsa"
      && req.requestValidity == env.settings.validity && req.csr == env.csr
      && key == env.settings.auth
    case WriteCertificate(f, pem) => f == CertificateFile && pem == env.issued.certificate
    case RunCommand(command) => command == env.settings.postRenew
    case MarshalConfig(cfg) => cfg == RenewedConfig(env)
    case WriteConfig(f, cfg) => f == ConfigFile && cfg == RenewedConfig(env)
    case WriteCron(f) => f == CronFile
    case RevokeOriginCertificate(id, key) =>
      && !env.settings.init && id == env.settings.previousCertificateId
      && key == env.settings.auth
  }

  lemma PlanCarries(env: Env, savesRenewedId: bool)
    ensures forall op | op in PlanOf(env, savesRenewedId) :: Carries(env, op)
  {
    StepsCarry(env);
    SaveCarries(env);
    var cfg := Assemble(env.settings);
    var steps := IssueSteps(cfg, env);
    var save := SavePlan(RenewedConfig(env));
    if env.settings.init {
      assert PlanOf(env, savesRenewedId) == steps + save + CronPlan;
    } else if savesRenewedId {
      assert PlanOf(env, savesRenewedId) == steps + save + RevokePlan(cfg);
    } else {
      assert PlanOf(env, savesRenewedId) == steps + [] + RevokePlan(cfg);
    }
  }

  lemma StepsCarry(env: Env)
    ensures forall op | op in IssueSteps(Assemble(env.settings), env) :: Carries(env, op)
  {
  }

  lemma SaveCarries(env: Env)
    ensures forall op | op in SavePlan(RenewedConfig(env)) :: Carries(env, op)
  {
  }

  lemma PlanOrdered(env: Env, savesRenewedId: bool)
    ensures Ordered(PlanOf(env, savesRenewedId))
    ensures Ordered(Issuance(env, savesRenewedId).trace)
  {
    IssuePlanOrdered(Assemble(env.settings), env.settings.init, env, savesRenewedId);
    ExecuteKeepsOrder(PlanOf(env, savesRenewedId), env.fails, 7, 23);
  }

  /** An issuance operation is in a run exactly when the run reaches
      issuance and performs it there. */
  lemma InRun(env: Env, savesRenewedId: bool, op: Op)
    requires Rank(op) >= 7
    ensures op in Orchestrate(env, savesRenewedId).trace <==>
              ReachesIssuance(env) && op in Issuance(env, savesRenewedId).trace
  {
    RunContains(env, savesRenewedId, op);
  }

  /** Every operation a run performs carries what the settings and the
      environment say it should. */
  lemma RunCarries(env: Env, savesRenewedId: bool)
    ensures forall op | op in Orchestrate(env, savesRenewedId).trace :: Carries(env, op)
  {
    forall op | op in Orchestrate(env, savesRenewedId).trace
      ensures Carries(env, op)
    {
      OpCarries(env, savesRenewedId, op);
    }
  }

  lemma OpCarries(env: Env, savesRenewedId: bool, op: Op)
    requires op in Orchestrate(env, savesRenewedId).trace
    ensures Carries(env, op)
  {
    RunContains(env, savesRenewedId, op);
    if Rank(op) < 4 {
      DirectoryOpCarries(env, op);
    } else if Rank(op) >= 7 {
      PlanCarries(env, savesRenewedId);
      assert op in PlanOf(env, savesRenewedId);
    }
  }

  lemma DirectoryOpCarries(env: Env, op: Op)
    requires op in Directories(env).trace
    ensures Carries(env, op)
  {
    var base := VerifyDirectory(CfbotDir, env.cfbotDir, env.settings.init, env.fails);
    var live := VerifyDirectory(LiveDir, env.liveDir, env.settings.init, env.fails);
    assert op in base.trace || op in live.trace;
  }

  /** A run that ends `Done` reached issuance and performed the whole plan,
      ending with its last step. */
  lemma DoneRunsWholePlan(env: Env, savesRenewedId: bool)
    requires Orchestrate(env, savesRenewedId).outcome == Done
    ensures ReachesIssuance(env)
    ensures forall op | op in PlanOf(env, savesRenewedId) :: op in Orchestrate(env, savesRenewedId).trace
    ensures var t := Orchestrate(env, savesRenewedId).trace;
            var plan := PlanOf(env, savesRenewedId);
            0 < |t| && t[|t| - 1] == plan[|plan| - 1]
  {
    SegmentOutcome(env, savesRenewedId);
    Segments(env, savesRenewedId);
    var plan := PlanOf(env, savesRenewedId);
    assert IssuePart(env, savesRenewedId) == plan;
  }

  /** A run aborted by an issuance step performed every earlier step of the
      plan and nothing ranked after the failing step. */
  lemma AbortedInIssuance(env: Env, savesRenewedId: bool)
    requires var r := Orchestrate(env, savesRenewedId);
             r.outcome.Aborted? && r.outcome.reason.Failed? && Rank(r.outcome.reason.op) >= 7
    ensures var f := Orchestrate(env, savesRenewedId).outcome.reason.op;
            ReachesIssuance(env) && f in Issuance(env, savesRenewedId).trace
    ensures var r := Orchestrate(env, savesRenewedId);
            forall op | op in r.trace :: Rank(op) <= Rank(r.outcome.reason.op)
    ensures var r := Orchestrate(env, savesRenewedId);
            forall op | op in PlanOf(env, savesRenewedId) && Rank(op) < Rank(r.outcome.reason.op) :: op in r.trace
  {
    var r := Orchestrate(env, savesRenewedId);
    var f := r.outcome.reason.op;
    FailureEndsRun(env, savesRenewedId);
    assert f in r.trace;
    InRun(env, savesRenewedId, f);
    RunEndsHighest(env, savesRenewedId);
    forall op | op in PlanOf(env, savesRenewedId) && Rank(op) < Rank(f)
      ensures op in r.trace
    {
      EarlierIssuanceStep(env, savesRenewedId, op, f);
      InRun(env, savesRenewedId, op);
    }
  }

  lemma RunEndsHighest(env: Env, savesRenewedId: bool)
    ensures var t := Orchestrate(env, savesRenewedId).trace;
            0 < |t| ==> forall op | op in t :: Rank(op) <= Rank(t[|t| - 1])
  {
    OrchestrateOrdered(env, savesRenewedId);
    var t := Orchestrate(env, savesRenewedId).trace;
    if 0 < |t| {
      LastRanksHighest(t);
    }
  }

  lemma EarlierIssuanceStep(env: Env, savesRenewedId: bool, a: Op, b: Op)
    requires a in PlanOf(env, savesRenewedId) && b in Issuance(env, savesRenewedId).trace
    requires Rank(a) < Rank(b)
    ensures a in Issuance(env, savesRenewedId).trace && Rank(a) >= 7
  {
    PlanOrdered(env, savesRenewedId);
    IssuePlanOrdered(Assemble(env.settings), env.settings.init, env, savesRenewedId);
    PrefixContainsEarlier(Issuance(env, savesRenewedId).trace, PlanOf(env, savesRenewedId), a, b);
  }

  /** What the plan holds: the shared steps; on an initial run the
      configuration save and cron install, ending with the cron write; on a
      renewal the revoke of the stored id as the last step, preceded by the
      configuration save only when the renewed id is saved. */
  lemma PlanShape(env: Env, savesRenewedId: bool)
    ensures var plan := PlanOf(env, savesRenewedId);
            && 0 < |plan|
            && (forall op | op in IssueSteps(Assemble(env.settings), env) :: op in plan)
    ensures var plan := PlanOf(env, savesRenewedId);
            env.settings.init ==>
              && (forall op | op in SavePlan(RenewedConfig(env)) + CronPlan :: op in plan)
              && plan[|plan| - 1] == WriteCron(CronFile)
    ensures var plan := PlanOf(env, savesRenewedId);
            !env.settings.init ==>
              plan[|plan| - 1] == RevokeOriginCertificate(env.settings.previousCertificateId, env.settings.auth)
    ensures var plan := PlanOf(env, savesRenewedId);
            !env.settings.init && savesRenewedId ==>
              forall op | op in SavePlan(RenewedConfig(env)) :: op in plan
    ensures var plan := PlanOf(env, savesRenewedId);
            !env.settings.init ==>
              forall op | op in plan :: Rank(op) < (if savesRenewedId then 20 else 17) || op.RevokeOriginCertificate?
  {
    var cfg := Assemble(env.settings);
    var steps := IssueSteps(cfg, env);
    var save := SavePlan(RenewedConfig(env));
    IssueStepsOrdered(cfg, env);
    if env.settings.init {
      assert PlanOf(env, savesRenewedId) == steps + save + CronPlan;
    } else if savesRenewedId {
      assert PlanOf(env, savesRenewedId) == steps + save + RevokePlan(cfg);
    } else {
      assert PlanOf(env, savesRenewedId) == steps + [] + RevokePlan(cfg);
      assert steps + [] + RevokePlan(cfg) == steps + RevokePlan(cfg);
    }
  }

  /** The ten shared steps at the head of the plan: the CSR, the key
      file, the CA request, the certificate file and the hook. */
  lemma PlanSteps(env: Env, savesRenewedId: bool)
    ensures var plan := PlanOf(env, savesRenewedId);
            && 10 < |plan|
            && plan[0] == GenerateCsr(CsrFor(env.settings.hostnames))
            && plan[1] == OpenFile(KeyFile, OwnerOnly)
            && plan[5] == WriteKeyPem(KeyFile)
            && plan[6] == CreateOriginCertificate(OriginRequestFor(Assemble(env.settings), env.csr), env.settings.auth)
            && plan[7] == OpenFile(CertificateFile, OwnerOnly)
            && plan[8] == WriteCertificate(CertificateFile, env.issued.certificate)
            && plan[9] == RunCommand(env.settings.postRenew)
  {
  }

  /** The steps between the key file and the key write: the two decodes
      and the CSR encoding. */
  lemma PlanDecodeSteps(env: Env, savesRenewedId: bool)
    ensures var plan := PlanOf(env, savesRenewedId);
            && 10 < |plan|
            && plan[2] == DecodePem(GeneratedCsr)
            && plan[3] == DecodePem(GeneratedKey)
            && plan[4] == EncodeCsr
  {
  }

  /** A run that performed a step of the plan performed every earlier one. */
  lemma RunHasEarlier(env: Env, savesRenewedId: bool, i: int, j: int)
    requires 0 <= i < j < |PlanOf(env, savesRenewedId)|
    requires PlanOf(env, savesRenewedId)[j] in Orchestrate(env, savesRenewedId).trace
    ensures PlanOf(env, savesRenewedId)[i] in Orchestrate(env, savesRenewedId).trace
  {
    var plan := PlanOf(env, savesRenewedId);
    IssuePlanOrdered(Assemble(env.settings), env.settings.init, env, savesRenewedId);
    InRun(env, savesRenewedId, plan[j]);
    InRun(env, savesRenewedId, plan[i]);
    IssuanceHasEarlier(env, savesRenewedId, i, j);
  }

  lemma IssuanceHasEarlier(env: Env, savesRenewedId: bool, i: int, j: int)
    requires 0 <= i < j < |PlanOf(env, savesRenewedId)|
    requires PlanOf(env, savesRenewedId)[j] in Issuance(env, savesRenewedId).trace
    ensures PlanOf(env, savesRenewedId)[i] in Issuance(env, savesRenewedId).trace
  {
    PlanOrdered(env, savesRenewedId);
    ExecutePrefix(PlanOf(env, savesRenewedId), env.fails);
    PrefixHasEarlier(Issuance(env, savesRenewedId).trace, PlanOf(env, savesRenewedId), i, j);
  }

  /** The post-renew hook runs only after the key has been written, the CA
      has issued and the certificate has been written; and once the
      certificate has been written the hook always runs, since the code
      drops the write's error. */
  lemma HookFollowsCertificate(env: Env, savesRenewedId: bool)
    ensures var t := Orchestrate(env, savesRenewedId).trace;
            RunCommand(env.settings.postRenew) in t ==>
              && WriteKeyPem(KeyFile) in t
              && CreateOriginCertificate(OriginRequestFor(Assemble(env.settings), env.csr), env.settings.auth) in t
              && WriteCertificate(CertificateFile, env.issued.certificate) in t
    ensures var t := Orchestrate(env, savesRenewedId).trace;
            WriteCertificate(CertificateFile, env.issued.certificate) in t ==> RunCommand(env.settings.postRenew) in t
  {
    var plan := PlanOf(env, savesRenewedId);
    var t := Orchestrate(env, savesRenewedId).trace;
    PlanSteps(env, savesRenewedId);
    if plan[9] in t {
      RunHasEarlier(env, savesRenewedId, 5, 9);
      RunHasEarlier(env, savesRenewedId, 6, 9);
      RunHasEarlier(env, savesRenewedId, 8, 9);
    }
    if plan[8] in t {
      CertificateWriteContinues(env, savesRenewedId);
    }
  }

  lemma CertificateWriteContinues(env: Env, savesRenewedId: bool)
    requires PlanOf(env, savesRenewedId)[8] in Orchestrate(env, savesRenewedId).trace
    ensures PlanOf(env, savesRenewedId)[9] in Orchestrate(env, savesRenewedId).trace
  {
    PlanSteps(env, savesRenewedId);
    UncheckedStepContinues(env, savesRenewedId, 8);
  }

  /** A step of the plan whose failure the code does not check is always
      followed by the next step. */
  lemma UncheckedStepContinues(env: Env, savesRenewedId: bool, j: int)
    requires 0 <= j < |PlanOf(env, savesRenewedId)| - 1 && !Checked(PlanOf(env, savesRenewedId)[j])
    requires PlanOf(env, savesRenewedId)[j] in Orchestrate(env, savesRenewedId).trace
    ensures PlanOf(env, savesRenewedId)[j + 1] in Orchestrate(env, savesRenewedId).trace
  {
    var plan := PlanOf(env, savesRenewedId);
    IssuePlanOrdered(Assemble(env.settings), env.settings.init, env, savesRenewedId);
    InRun(env, savesRenewedId, plan[j]);
    InRun(env, savesRenewedId, plan[j + 1]);
    UncheckedContinues(plan, env.fails, j);
  }

  /** A generated CSR or key in which `pem.Decode` finds no block does not
      end the run at the decode: both decodes are performed and so is the
      CSR encoding, where a nil CSR block is first used. */
  lemma DecodesNeverAbort(env: Env, savesRenewedId: bool)
    ensures var t := Orchestrate(env, savesRenewedId).trace;
            DecodePem(GeneratedCsr) in t ==> DecodePem(GeneratedKey) in t && EncodeCsr in t
    ensures var t := Orchestrate(env, savesRenewedId).trace;
            DecodePem(GeneratedKey) in t ==> EncodeCsr in t
  {
    var plan := PlanOf(env, savesRenewedId);
    var t := Orchestrate(env, savesRenewedId).trace;
    PlanDecodeSteps(env, savesRenewedId);
    if plan[2] in t {
      UncheckedStepContinues(env, savesRenewedId, 2);
    }
    if plan[3] in t {
      UncheckedStepContinues(env, savesRenewedId, 3);
    }
  }

  /** An issuance operation a run performs is a step of its plan. */
  lemma IssuanceOpInPlan(env: Env, savesRenewedId: bool, op: Op)
    requires op in Orchestrate(env, savesRenewedId).trace && Rank(op) >= 7
    ensures op in PlanOf(env, savesRenewedId)
  {
    InRun(env, savesRenewedId, op);
    ExecutePrefix(PlanOf(env, savesRenewedId), env.fails);
    var e := Issuance(env, savesRenewedId).trace;
    var k :| 0 <= k < |e| && e[k] == op;
    assert PlanOf(env, savesRenewedId)[k] == op;
  }

  /** A run that ends `Done` performed every issuance step: it generated
      the CSR, wrote the key, obtained the certificate, opened the
      certificate file, performed the certificate write and ran the hook.
      That write may have failed unnoticed; `History.DoneEffect` says what
      the certificate file then holds. */
  lemma DoneWritesCertificate(env: Env, savesRenewedId: bool)
    requires Orchestrate(env, savesRenewedId).outcome == Done
    ensures var t := Orchestrate(env, savesRenewedId).trace;
            && GenerateCsr(CsrFor(env.settings.hostnames)) in t
            && WriteKeyPem(KeyFile) in t
            && CreateOriginCertificate(OriginRequestFor(Assemble(env.settings), env.csr), env.settings.auth) in t
            && OpenFile(CertificateFile, OwnerOnly) in t
            && WriteCertificate(CertificateFile, env.issued.certificate) in t
            && RunCommand(env.settings.postRenew) in t
  {
    var plan := PlanOf(env, savesRenewedId);
    PlanSteps(env, savesRenewedId);
    DoneRunsWholePlan(env, savesRenewedId);
    assert plan[0] in plan && plan[5] in plan && plan[6] in plan && plan[7] in plan && plan[8] in plan && plan[9] in plan;
  }

  /** When the CA call fails the key file has already been truncated and
      rewritten, and neither the certificate file, the hook, the
      configuration, cron nor a revoke has been touched. */
  lemma AuthorityFailureLeavesNewKey(env: Env, savesRenewedId: bool)
    requires var r := Orchestrate(env, savesRenewedId);
             r.outcome.Aborted? && r.outcome.reason.Failed? && r.outcome.reason.op.CreateOriginCertificate?
    ensures var t := Orchestrate(env, savesRenewedId).trace;
            OpenFile(KeyFile, OwnerOnly) in t && WriteKeyPem(KeyFile) in t
    ensures var t := Orchestrate(env, savesRenewedId).trace;
            forall op | op in t :: !AfterAuthority(op)
  {
    var r := Orchestrate(env, savesRenewedId);
    var plan := PlanOf(env, savesRenewedId);
    PlanSteps(env, savesRenewedId);
    assert Rank(r.outcome.reason.op) == 13;
    AbortedInIssuance(env, savesRenewedId);
    assert plan[1] in plan && plan[5] in plan;
    forall op | op in r.trace
      ensures !AfterAuthority(op)
    {
      AfterAuthorityRanks(op);
    }
  }

  /** The operations that follow a successful CA call. */
  predicate AfterAuthority(op: Op)
  {
    || (op.OpenFile? && op.file == CertificateFile)
    || op.WriteCertificate? || AfterHook(op)
  }

  /** The operations that follow a successful hook. */
  predicate AfterHook(op: Op)
  {
    || op.RunCommand?
    || (op.OpenFile? && (op.file == ConfigFile || op.file == CronFile))
    || op.MarshalConfig? || op.WriteConfig? || op.WriteCron? || op.RevokeOriginCertificate?
  }

  lemma AfterAuthorityRanks(op: Op)
    ensures AfterAuthority(op) ==> Rank(op) > 13
    ensures AfterHook(op) && !op.RunCommand? ==> Rank(op) > 16
  {
  }

  /** When the hook fails the CA has issued and the certificate write has
      been performed (it may have failed unnoticed), and neither the
      configuration, cron nor a revoke has been touched. */
  lemma HookFailureLeavesNewCertificate(env: Env, savesRenewedId: bool)
    requires var r := Orchestrate(env, savesRenewedId);
             r.outcome.Aborted? && r.outcome.reason.Failed? && r.outcome.reason.op.RunCommand?
    ensures var t := Orchestrate(env, savesRenewedId).trace;
            && CreateOriginCertificate(OriginRequestFor(Assemble(env.settings), env.csr), env.settings.auth) in t
            && WriteCertificate(CertificateFile, env.issued.certificate) in t
    ensures var t := Orchestrate(env, savesRenewedId).trace;
            forall op | op in t :: !AfterHook(op) || op.RunCommand?
  {
    var r := Orchestrate(env, savesRenewedId);
    var plan := PlanOf(env, savesRenewedId);
    PlanSteps(env, savesRenewedId);
    assert Rank(r.outcome.reason.op) == 16;
    AbortedInIssuance(env, savesRenewedId);
    assert plan[6] in plan && plan[8] in plan;
    forall op | op in r.trace
      ensures !AfterHook(op) || op.RunCommand?
    {
      AfterAuthorityRanks(op);
    }
  }

  /** The operations of `saveConfig` and `addCron`. */
  predicate SavesOrSchedules(op: Op)
  {
    || (op.OpenFile? && (op.file == ConfigFile || op.file == CronFile))
    || op.MarshalConfig? || op.WriteConfig? || op.WriteCron?
  }

  lemma SavesOrSchedulesRanks(op: Op)
    ensures SavesOrSchedules(op) ==> Rank(op) >= 17
    ensures op.WriteCron? || (op.OpenFile? && op.file == CronFile) ==> Rank(op) >= 20
  {
  }

  /** The configuration an initial run saves: the settings it was given,
      with the new certificate's id. */
  lemma InitialRunSavedConfig(env: Env)
    requires env.settings.init
    ensures RenewedConfig(env)
            == Config(env.settings.auth, env.settings.hostnames, env.settings.validity,
                      env.settings.postRenew, env.issued.id)
  {
  }

  /** An initial run never revokes anything. */
  lemma InitialRunNeverRevokes(env: Env, savesRenewedId: bool)
    requires env.settings.init
    ensures forall op | op in Orchestrate(env, savesRenewedId).trace :: !op.RevokeOriginCertificate?
  {
    forall op | op in Orchestrate(env, savesRenewedId).trace
      ensures !op.RevokeOriginCertificate?
    {
      OpCarries(env, savesRenewedId, op);
    }
  }

  /** A completed initial run saved the configuration with the new
      certificate's id and installed the cron job last. */
  lemma InitialRunEnding(env: Env, savesRenewedId: bool)
    requires env.settings.init && Orchestrate(env, savesRenewedId).outcome == Done
    ensures var t := Orchestrate(env, savesRenewedId).trace;
            && MarshalConfig(RenewedConfig(env)) in t
            && WriteConfig(ConfigFile, RenewedConfig(env)) in t
            && t[|t| - 1] == WriteCron(CronFile)
  {
    PlanShape(env, savesRenewedId);
    DoneRunsWholePlan(env, savesRenewedId);
    var tail := SavePlan(RenewedConfig(env)) + CronPlan;
    assert tail[0] in tail && tail[2] in tail;
  }

  /** A renewal as written neither saves the configuration nor touches
      cron, and when it completes its last act is revoking the certificate
      whose id is stored in the configuration it loaded. */
  lemma RenewalEnding(env: Env)
    requires !env.settings.init
    ensures forall op | op in Run(env).trace :: !SavesOrSchedules(op)
    ensures var t := Run(env).trace;
            Run(env).outcome == Done ==>
              t[|t| - 1] == RevokeOriginCertificate(env.settings.previousCertificateId, env.settings.auth)
  {
    PlanShape(env, false);
    forall op | op in Run(env).trace
      ensures !SavesOrSchedules(op)
    {
      SavesOrSchedulesRanks(op);
      if Rank(op) >= 7 {
        IssuanceOpInPlan(env, false, op);
      }
    }
    if Run(env).outcome == Done {
      DoneRunsWholePlan(env, false);
    }
  }

  /** A corrected renewal never touches cron. */
  lemma RenewalFixedSkipsCron(env: Env)
    requires !env.settings.init
    ensures forall op | op in RunFixed(env).trace :: !op.WriteCron? && !(op.OpenFile? && op.file == CronFile)
  {
    PlanShape(env, true);
    forall op | op in RunFixed(env).trace
      ensures !op.WriteCron? && !(op.OpenFile? && op.file == CronFile)
    {
      SavesOrSchedulesRanks(op);
      if Rank(op) >= 7 {
        IssuanceOpInPlan(env, true, op);
      }
    }
  }

  /** A completed corrected renewal saved the configuration with the new
      certificate's id and then revoked the stored id last. */
  lemma RenewalEndingFixed(env: Env)
    requires !env.settings.init && RunFixed(env).outcome == Done
    ensures var t := RunFixed(env).trace;
            && WriteConfig(ConfigFile, RenewedConfig(env)) in t
            && t[|t| - 1] == RevokeOriginCertificate(env.settings.previousCertificateId, env.settings.auth)
  {
    PlanShape(env, true);
    DoneRunsWholePlan(env, true);
    var save := SavePlan(RenewedConfig(env));
    assert save[2] in save;
  }

  /** The correction changes renewals only: an initial run, and any run
      that stops before issuing, is the same either way. */
  lemma FixChangesOnlyRenewals(env: Env)
    requires env.settings.init || !ReachesIssuance(env)
    ensures RunFixed(env) == Run(env)
  {
    var cfg := Assemble(env.settings);
    if env.settings.init {
      assert IssuePlan(cfg, true, env, true) == IssuePlan(cfg, true, env, false);
    } else {
      SegmentOutcome(env, true);
      SegmentOutcome(env, false);
      Segments(env, true);
      Segments(env, false);
    }
  }
}

=== FILE: lifecycle.dfy ===
/** The certificate lifecycle of utils/root.go as one pure function from the
    run's environment to the operations performed and the run's outcome.

    `Run` is the code as written. `RunFixed` differs only in that a renewal
    also saves the new certificate id, which the written code never does
    (see module History). */
module Lifecycle {
  import opened Configs
  import opened Validity
  import opened Effects

  /** What `os.Stat` reports for a directory. */
  datatype StatResult = Exists | NotExist | StatError

  /** The CA's answer to a successful issue request. */
  datatype Issued = Issued(id: string, certificate: string)

  /** Everything a run depends on that the code does not compute itself. */
  datatype Env = Env(
    settings: Settings,
    cfbotDir: StatResult,
    liveDir: StatResult,
    notAfter: int,      // NotAfter of the stored certificate, in ns
    now: int,           // time.Now, in ns
    csr: string,        // the PEM CSR that cfssl produces
    issued: Issued,     // the CA's answer when the issue request succeeds
    fails: set<Op>)     // the operations whose error is non-nil

  datatype Outcome = Done | NoRenewalNeeded | Aborted(reason: Reason)

  datatype RunResult = RunResult(trace: seq<Op>, outcome: Outcome)

  function StatOf(env: Env, d: Dir): StatResult
  {
    match d
    case CfbotDir => env.cfbotDir
    case LiveDir => env.liveDir
  }

  /** `verifyDirectoryExists`: a missing directory is created on an initial
      run and is fatal otherwise; any other stat error is fatal; an existing
      directory is left alone. */
  function VerifyDirectory(d: Dir, stat: StatResult, initialRun: bool, fails: set<Op>): (p: Partial)
    ensures 0 < |p.trace| <= 2 && p.trace[0] == Stat(d)
    ensures forall i | 1 <= i < |p.trace| :: p.trace[i] == MkdirAll(d, DirMode)
    ensures MkdirAll(d, DirMode) in p.trace <==> stat == NotExist && initialRun
    ensures p.failure.None? <==>
              stat == Exists || (stat == NotExist && initialRun && !Fails(MkdirAll(d, DirMode), fails))
    ensures p.failure.Some? && !(stat == NotExist && initialRun) ==> p.failure == Some(FoldersNotSetUp(d))
    ensures p.failure.Some? && stat == NotExist && initialRun ==> p.failure == Some(Failed(MkdirAll(d, DirMode)))
  {
    var stat' := Partial([Stat(d)], None);
    ExecutePrefix([MkdirAll(d, DirMode)], fails);
    if stat == NotExist && initialRun then stat'.Then(Execute([MkdirAll(d, DirMode)], fails))
    else if stat != Exists then Partial([Stat(d)], Some(FoldersNotSetUp(d)))
    else stat'
  }

  /** Reading and parsing the stored certificate. */
  const ReadPlan: seq<Op> := [ReadFile(CertificateFile), DecodePem(StoredCertificate), ParseCertificate]

  /** RSA 2048 key, common name "Cloudflare", the configured hostnames. */
  function CsrFor(hostnames: seq<string>): CsrRequest
  {
    CsrRequest("Cloudflare", hostnames, KeyRequest("rsa", 2048))
  }

  function OriginRequestFor(cfg: Config, csr: string): OriginRequest
  {
    OriginRequest(cfg.hostnames, "origin-rsa", cfg.validity, csr)
  }

  /** `saveConfigsJSON` of the given configuration. */
  function SavePlan(cfg: Config): seq<Op>
  {
    [MarshalConfig(cfg), OpenFile(ConfigFile, ConfigMode), WriteConfig(ConfigFile, cfg)]
  }

  /** `addCron`. */
  const CronPlan: seq<Op> := [OpenFile(CronFile, CronMode), WriteCron(CronFile)]

  /** `revokePreviousCertificate` of the configured previous id. */
  function RevokePlan(cfg: Config): seq<Op>
  {
    [RevokeOriginCertificate(cfg.previousCertificateId, cfg.authServiceKey)]
  }

  /** The part of `generateCertificate` both modes share: key and CSR, key
      file, CA request, certificate file, post-renew command. */
  function IssueSteps(cfg: Config, env: Env): seq<Op>
  {
    [ GenerateCsr(CsrFor(cfg.hostnames)),
      OpenFile(KeyFile, OwnerOnly),
      DecodePem(GeneratedCsr),
      DecodePem(GeneratedKey),
      EncodeCsr,
      WriteKeyPem(KeyFile),
      CreateOriginCertificate(OriginRequestFor(cfg, env.csr), cfg.authServiceKey),
      OpenFile(CertificateFile, OwnerOnly),
      WriteCertificate(CertificateFile, env.issued.certificate),
      RunCommand(cfg.postRenewCommand) ]
  }

  /** `generateCertificate` with the helpers it calls: the shared steps, then
      either saving the configuration with the new id and installing cron
      (initial run) or revoking the previous certificate (renewal). With
      `savesRenewedId` a renewal saves the configuration holding the new id
      before revoking. */
  function IssuePlan(cfg: Config, initialRun: bool, env: Env, savesRenewedId: bool): seq<Op>
  {
    var renewed := cfg.(previousCertificateId := env.issued.id);
    if initialRun then IssueSteps(cfg, env) + SavePlan(renewed) + CronPlan
    else IssueSteps(cfg, env) + (if savesRenewedId then SavePlan(renewed) else []) + RevokePlan(cfg)
  }

  lemma IssueStepsOrdered(cfg: Config, env: Env)
    ensures Ordered(IssueSteps(cfg, env)) && RanksIn(IssueSteps(cfg, env), 7, 17)
  {
    var steps := IssueSteps(cfg, env);
    assert forall i | 0 <= i < |steps| :: Rank(steps[i]) == 7 + i;
    StepwiseIsOrdered(steps);
  }

  lemma IssuePlanOrdered(cfg: Config, initialRun: bool, env: Env, savesRenewedId: bool)
    ensures Ordered(IssuePlan(cfg, initialRun, env, savesRenewedId))
    ensures RanksIn(IssuePlan(cfg, initialRun, env, savesRenewedId), 7, 23)
  {
    var steps := IssueSteps(cfg, env);
    var middle := if initialRun || savesRenewedId then SavePlan(cfg.(previousCertificateId := env.issued.id)) else [];
    var ending := if initialRun then CronPlan else RevokePlan(cfg);
    IssuePlanParts(cfg, initialRun, env, savesRenewedId);
    IssueStepsOrdered(cfg, env);
    TailOrdered(cfg, initialRun, env, savesRenewedId);
    AppendKeepsOrder(steps, middle + ending, 7, 17, 23);
  }

  lemma IssuePlanParts(cfg: Config, initialRun: bool, env: Env, savesRenewedId: bool)
    ensures IssuePlan(cfg, initialRun, env, savesRenewedId)
              == IssueSteps(cfg, env)
                 + ((if initialRun || savesRenewedId then SavePlan(cfg.(previousCertificateId := env.issued.id)) else [])
                    + (if initialRun then CronPlan else RevokePlan(cfg)))
  {
  }

  lemma TailOrdered(cfg: Config, initialRun: bool, env: Env, savesRenewedId: bool)
    ensures var middle := if initialRun || savesRenewedId then SavePlan(cfg.(previousCertificateId := env.issued.id)) else [];
            var ending := if initialRun then CronPlan else RevokePlan(cfg);
            Ordered(middle + ending) && RanksIn(middle + ending, 17, 23)
  {
    var middle := if initialRun || savesRenewedId then SavePlan(cfg.(previousCertificateId := env.issued.id)) else [];
    var ending := if initialRun then CronPlan else RevokePlan(cfg);
    SavePlanRanks(cfg.(previousCertificateId := env.issued.id));
    EndingRanks(cfg);
    AppendKeepsOrder(middle, ending, 17, 20, 23);
  }

  lemma SavePlanRanks(cfg: Config)
    ensures Ordered(SavePlan(cfg)) && RanksIn(SavePlan(cfg), 17, 20)
  {
    var save := SavePlan(cfg);
    assert forall i | 0 <= i < |save| :: Rank(save[i]) == 17 + i;
  }

  lemma EndingRanks(cfg: Config)
    ensures Ordered(CronPlan) && RanksIn(CronPlan, 20, 23)
    ensures Ordered(RevokePlan(cfg)) && RanksIn(RevokePlan(cfg), 20, 23)
  {
    assert forall i | 0 <= i < |CronPlan| :: Rank(CronPlan[i]) == 20 + i;
  }

  /** What `checkInitialRunAndCreateCertificate` does once both directories
      are in place: an initial run issues straight away; a later run reads
      the stored certificate and issues only when it is within the buffer. */
  function CertificateWork(env: Env, cfg: Config, savesRenewedId: bool): Partial
  {
    var issue := Execute(IssuePlan(cfg, env.settings.init, env, savesRenewedId), env.fails);
    var check := Execute(ReadPlan, env.fails);
    if env.settings.init then issue
    else if check.failure.Some? || !NeedsRenewal(Sub(env.notAfter, env.now)) then check
    else check.Then(issue)
  }

  /** Both directory checks, the config directory first. */
  function Directories(env: Env): (p: Partial)
    ensures 0 < |p.trace| && p.trace[0] == Stat(CfbotDir)
  {
    var base := VerifyDirectory(CfbotDir, env.cfbotDir, env.settings.init, env.fails);
    var live := VerifyDirectory(LiveDir, env.liveDir, env.settings.init, env.fails);
    base.Then(live)
  }

  /** The whole run: `Cfbot` assembles the configuration, `validateFlags`
      checks it, `checkInitialRunAndCreateCertificate` checks the two
      directories and decides, `generateCertificate` issues. */
  function Orchestrate(env: Env, savesRenewedId: bool): RunResult
  {
    var cfg := Assemble(env.settings);
    if cfg.authServiceKey == "" then RunResult([], Aborted(AuthNotSet))
    else if |cfg.hostnames| == 0 then RunResult([], Aborted(HostnamesNotSet))
    else
      var dirs := Directories(env);
      if dirs.failure.Some? then RunResult(dirs.trace, Aborted(dirs.failure.value))
      else
        var p := dirs.Then(CertificateWork(env, cfg, savesRenewedId));
        if p.failure.Some? then RunResult(p.trace, Aborted(p.failure.value))
        else if env.settings.init || NeedsRenewal(Sub(env.notAfter, env.now)) then RunResult(p.trace, Done)
        else RunResult(p.trace, NoRenewalNeeded)
  }

  lemma CertificateWorkTerminal(env: Env, cfg: Config, savesRenewedId: bool)
    ensures FailureIsTerminal(CertificateWork(env, cfg, savesRenewedId), env.fails)
  {
    var check := Execute(ReadPlan, env.fails);
    var issue := Execute(IssuePlan(cfg, env.settings.init, env, savesRenewedId), env.fails);
    ExecuteFailureIsTerminal(ReadPlan, env.fails);
    ExecuteFailureIsTerminal(IssuePlan(cfg, env.settings.init, env, savesRenewedId), env.fails);
    ThenFailureIsTerminal(check, issue, env.fails);
  }

  lemma DirectoriesTerminal(env: Env)
    ensures FailureIsTerminal(Directories(env), env.fails)
  {
    var base := VerifyDirectory(CfbotDir, env.cfbotDir, env.settings.init, env.fails);
    var live := VerifyDirectory(LiveDir, env.liveDir, env.settings.init, env.fails);
    ThenFailureIsTerminal(base, live, env.fails);
  }

  /** Every error the code checks ends the run: no operation before the
      last one failed, none failed at all unless the run was aborted, and
      an abort for a failed operation names the last operation performed. */
  lemma FailureEndsRun(env: Env, savesRenewedId: bool)
    ensures var r := Orchestrate(env, savesRenewedId);
            forall i | 0 <= i < |r.trace| - 1 :: !Fails(r.trace[i], env.fails)
    ensures var r := Orchestrate(env, savesRenewedId);
            !r.outcome.Aborted? ==> forall i | 0 <= i < |r.trace| :: !Fails(r.trace[i], env.fails)
    ensures var r := Orchestrate(env, savesRenewedId);
            r.outcome.Aborted? && r.outcome.reason.Failed? ==>
              && 0 < |r.trace|
              && r.trace[|r.trace| - 1] == r.outcome.reason.op
              && Fails(r.outcome.reason.op, env.fails)
  {
    var cfg := Assemble(env.settings);
    if cfg.authServiceKey != "" && |cfg.hostnames| > 0 {
      var dirs := Directories(env);
      var p := dirs.Then(CertificateWork(env, cfg, savesRenewedId));
      DirectoriesTerminal(env);
      CertificateWorkTerminal(env, cfg, savesRenewedId);
      ThenFailureIsTerminal(dirs, CertificateWork(env, cfg, savesRenewedId), env.fails);
      var r := Orchestrate(env, savesRenewedId);
      if dirs.failure.Some? {
        assert r == RunResult(dirs.trace, Aborted(dirs.failure.value));
      } else {
        assert r.trace == p.trace && (r.outcome.Aborted? <==> p.failure.Some?);
        assert p.failure.Some? ==> r.outcome == Aborted(p.failure.value);
      }
    }
  }

  lemma DirectoriesOrdered(env: Env)
    ensures Ordered(Directories(env).trace) && RanksIn(Directories(env).trace, 0, 4)
  {
    var base := VerifyDirectory(CfbotDir, env.cfbotDir, env.settings.init, env.fails);
    var live := VerifyDirectory(LiveDir, env.liveDir, env.settings.init, env.fails);
    StepwiseIsOrdered(base.trace);
    StepwiseIsOrdered(live.trace);
    ThenKeepsOrder(base, live, 0, 2, 4);
  }

  /** How a run with valid flags is put together from its stretches. */
  lemma OrchestrateShape(env: Env, savesRenewedId: bool)
    requires FlagsValid(env)
    ensures var dirs := Directories(env);
            var r := Orchestrate(env, savesRenewedId);
            dirs.failure.Some? ==> r == RunResult(dirs.trace, Aborted(dirs.failure.value))
    ensures var dirs := Directories(env);
            var r := Orchestrate(env, savesRenewedId);
            var e := Execute(IssuePlan(Assemble(env.settings), true, env, savesRenewedId), env.fails);
            dirs.failure.None? && env.settings.init ==>
              && r.trace == dirs.trace + e.trace
              && r.outcome == (if e.failure.Some? then Aborted(e.failure.value) else Done)
    ensures var dirs := Directories(env);
            var r := Orchestrate(env, savesRenewedId);
            var c := Execute(ReadPlan, env.fails);
            dirs.failure.None? && !env.settings.init && c.failure.Some? ==>
              r == RunResult(dirs.trace + c.trace, Aborted(c.failure.value))
    ensures var dirs := Directories(env);
            var r := Orchestrate(env, savesRenewedId);
            var c := Execute(ReadPlan, env.fails);
            dirs.failure.None? && !env.settings.init && c.failure.None? && !NeedsRenewal(Sub(env.notAfter, env.now)) ==>
              r == RunResult(dirs.trace + ReadPlan, NoRenewalNeeded)
    ensures var dirs := Directories(env);
            var r := Orchestrate(env, savesRenewedId);
            var c := Execute(ReadPlan, env.fails);
            var e := Execute(IssuePlan(Assemble(env.settings), false, env, savesRenewedId), env.fails);
            dirs.failure.None? && !env.settings.init && c.failure.None? && NeedsRenewal(Sub(env.notAfter, env.now)) ==>
              && r.trace == dirs.trace + ReadPlan + e.trace
              && r.outcome == (if e.failure.Some? then Aborted(e.failure.value) else Done)
  {
    var dirs := Directories(env);
    if dirs.failure.Some? {
      ShapeAtDirectories(env, savesRenewedId);
    } else if env.settings.init {
      ShapeInitial(env, savesRenewedId);
    } else if Execute(ReadPlan, env.fails).failure.Some? {
      ShapeCheckFails(env, savesRenewedId);
    } else if !NeedsRenewal(Sub(env.notAfter, env.now)) {
      ShapeNoRenewal(env, savesRenewedId);
    } else {
      ShapeRenewal(env, savesRenewedId);
    }
  }

  lemma ShapeAtDirectories(env: Env, savesRenewedId: bool)
    requires FlagsValid(env)
    requires Directories(env).failure.Some?
    ensures Orchestrate(env, savesRenewedId)
              == RunResult(Directories(env).trace, Aborted(Directories(env).failure.value))
  {
  }

  lemma ShapeInitial(env: Env, savesRenewedId: bool)
    requires FlagsValid(env)
    requires Directories(env).failure.None? && env.settings.init
    ensures var e := Execute(IssuePlan(Assemble(env.settings), true, env, savesRenewedId), env.fails);
            && Orchestrate(env, savesRenewedId).trace == Directories(env).trace + e.trace
            && Orchestrate(env, savesRenewedId).outcome == (if e.failure.Some? then Aborted(e.failure.value) else Done)
  {
  }

  lemma ShapeCheckFails(env: Env, savesRenewedId: bool)
    requires FlagsValid(env)
    requires Directories(env).failure.None? && !env.settings.init
    requires Execute(ReadPlan, env.fails).failure.Some?
    ensures var c := Execute(ReadPlan, env.fails);
            Orchestrate(env, savesRenewedId) == RunResult(Directories(env).trace + c.trace, Aborted(c.failure.value))
  {
  }

  lemma ShapeNoRenewal(env: Env, savesRenewedId: bool)
    requires FlagsValid(env)
    requires Directories(env).failure.None? && !env.settings.init
    requires Execute(ReadPlan, env.fails).failure.None? && !NeedsRenewal(Sub(env.notAfter, env.now))
    ensures Orchestrate(env, savesRenewedId) == RunResult(Directories(env).trace + ReadPlan, NoRenewalNeeded)
  {
    ExecutePrefix(ReadPlan, env.fails);
  }

  lemma ShapeRenewal(env: Env, savesRenewedId: bool)
    requires FlagsValid(env)
    requires Directories(env).failure.None? && !env.settings.init
    requires Execute(ReadPlan, env.fails).failure.None? && NeedsRenewal(Sub(env.notAfter, env.now))
    ensures var e := Execute(IssuePlan(Assemble(env.settings), false, env, savesRenewedId), env.fails);
            && Orchestrate(env, savesRenewedId).trace == Directories(env).trace + ReadPlan + e.trace
            && Orchestrate(env, savesRenewedId).outcome == (if e.failure.Some? then Aborted(e.failure.value) else Done)
  {
    ExecutePrefix(ReadPlan, env.fails);
  }

  /** The run gets as far as `generateCertificate`: valid flags, both
      directories in place, and either an initial run or a readable stored
      certificate within the buffer. */
  predicate ReachesIssuance(env: Env)
  {
    && FlagsValid(env)
    && Directories(env).failure.None?
    && (env.settings.init
        || (Execute(ReadPlan, env.fails).failure.None? && NeedsRenewal(Sub(env.notAfter, env.now))))
  }

  /** The operations of `generateCertificate` a run performs. */
  function Issuance(env: Env, savesRenewedId: bool): Partial
  {
    Execute(IssuePlan(Assemble(env.settings), env.settings.init, env, savesRenewedId), env.fails)
  }

  /** True when the flags pass `validateFlags`. */
  predicate FlagsValid(env: Env)
  {
    env.settings.auth != "" && |env.settings.hostnames| > 0
  }

  /** True when a later run gets to read its stored certificate. */
  predicate ReachesCheck(env: Env)
  {
    FlagsValid(env) && Directories(env).failure.None? && !env.settings.init
  }

  /** The stretch of a run spent on the directories. */
  function DirectoryPart(env: Env): seq<Op>
  {
    if FlagsValid(env) then Directories(env).trace else []
  }

  /** The stretch of a run spent reading the stored certificate. */
  function CheckPart(env: Env): seq<Op>
  {
    if ReachesCheck(env) then Execute(ReadPlan, env.fails).trace else []
  }

  /** The stretch of a run spent in `generateCertificate`. */
  function IssuePart(env: Env, savesRenewedId: bool): seq<Op>
  {
    if ReachesIssuance(env) then Issuance(env, savesRenewedId).trace else []
  }

  /** Every run is its directory stretch, then its check stretch, then its
      issuance stretch. */
  lemma Segments(env: Env, savesRenewedId: bool)
    ensures Orchestrate(env, savesRenewedId).trace
              == DirectoryPart(env) + CheckPart(env) + IssuePart(env, savesRenewedId)
  {
    if !FlagsValid(env) {
    } else if Directories(env).failure.Some? || !ReachesIssuance(env) {
      SegmentsWithoutIssuance(env, savesRenewedId);
    } else {
      SegmentsWithIssuance(env, savesRenewedId);
    }
  }

  lemma SegmentsWithoutIssuance(env: Env, savesRenewedId: bool)
    requires FlagsValid(env) && !ReachesIssuance(env)
    ensures Orchestrate(env, savesRenewedId).trace == DirectoryPart(env) + CheckPart(env)
    ensures IssuePart(env, savesRenewedId) == []
  {
    OrchestrateShape(env, savesRenewedId);
    if Directories(env).failure.Some? || env.settings.init {
      assert CheckPart(env) == [];
      assert DirectoryPart(env) + [] == DirectoryPart(env);
    }
  }

  lemma SegmentsWithIssuance(env: Env, savesRenewedId: bool)
    requires ReachesIssuance(env)
    ensures Orchestrate(env, savesRenewedId).trace
              == DirectoryPart(env) + CheckPart(env) + IssuePart(env, savesRenewedId)
  {
    OrchestrateShape(env, savesRenewedId);
    if env.settings.init {
      assert CheckPart(env) == [];
      assert DirectoryPart(env) + [] == DirectoryPart(env);
    } else {
      ExecutePrefix(ReadPlan, env.fails);
      assert CheckPart(env) == ReadPlan;
    }
  }

  /** Each stretch keeps program order within its own band of ranks. */
  lemma SegmentRanks(env: Env, savesRenewedId: bool)
    ensures Ordered(DirectoryPart(env)) && RanksIn(DirectoryPart(env), 0, 4)
    ensures Ordered(CheckPart(env)) && RanksIn(CheckPart(env), 4, 7)
    ensures Ordered(IssuePart(env, savesRenewedId)) && RanksIn(IssuePart(env, savesRenewedId), 7, 23)
  {
    DirectoriesOrdered(env);
    CheckPartRanks(env);
    IssuePartRanks(env, savesRenewedId);
  }

  lemma CheckPartRanks(env: Env)
    ensures Ordered(CheckPart(env)) && RanksIn(CheckPart(env), 4, 7)
  {
    StepwiseIsOrdered(ReadPlan);
    ExecuteKeepsOrder(ReadPlan, env.fails, 4, 7);
  }

  lemma IssuePartRanks(env: Env, savesRenewedId: bool)
    ensures Ordered(IssuePart(env, savesRenewedId)) && RanksIn(IssuePart(env, savesRenewedId), 7, 23)
  {
    var plan := IssuePlan(Assemble(env.settings), env.settings.init, env, savesRenewedId);
    IssuePlanOrdered(Assemble(env.settings), env.settings.init, env, savesRenewedId);
    ExecuteKeepsOrder(plan, env.fails, 7, 23);
  }

  /** A run is `Done` exactly when it reaches issuance and issuance does not
      fail, and `NoRenewalNeeded` exactly when the stored certificate is read
      and has at least the buffer left. */
  lemma SegmentOutcome(env: Env, savesRenewedId: bool)
    ensures Orchestrate(env, savesRenewedId).outcome == Done <==>
              ReachesIssuance(env) && Issuance(env, savesRenewedId).failure.None?
    ensures Orchestrate(env, savesRenewedId).outcome == NoRenewalNeeded <==>
              && ReachesCheck(env) && Execute(ReadPlan, env.fails).failure.None?
              && !NeedsRenewal(Sub(env.notAfter, env.now))
  {
    if FlagsValid(env) {
      OrchestrateShape(env, savesRenewedId);
    }
  }

  /** What a run does after its directory checks. */
  function AfterDirectories(env: Env, savesRenewedId: bool): seq<Op>
  {
    CheckPart(env) + IssuePart(env, savesRenewedId)
  }

  /** With valid flags a run is its directory checks followed by later work
      only, and there is no later work when a directory check fails. */
  lemma DirectoriesThenRest(env: Env, savesRenewedId: bool)
    requires FlagsValid(env)
    ensures Orchestrate(env, savesRenewedId).trace == Directories(env).trace + AfterDirectories(env, savesRenewedId)
    ensures RanksIn(AfterDirectories(env, savesRenewedId), 4, 23)
    ensures Directories(env).failure.Some? ==> AfterDirectories(env, savesRenewedId) == []
  {
    RestFollows(env, savesRenewedId);
    RestRanks(env, savesRenewedId);
  }

  lemma RestFollows(env: Env, savesRenewedId: bool)
    requires FlagsValid(env)
    ensures Orchestrate(env, savesRenewedId).trace == Directories(env).trace + AfterDirectories(env, savesRenewedId)
  {
    Segments(env, savesRenewedId);
  }

  lemma RestRanks(env: Env, savesRenewedId: bool)
    ensures RanksIn(AfterDirectories(env, savesRenewedId), 4, 23)
  {
    SegmentRanks(env, savesRenewedId);
    AppendRanks(CheckPart(env), IssuePart(env, savesRenewedId), 4, 7, 23);
  }

  /** Which stretch of a run an operation can belong to is fixed by its
      rank. */
  lemma RunContains(env: Env, savesRenewedId: bool, op: Op)
    ensures op in Orchestrate(env, savesRenewedId).trace <==>
              if Rank(op) < 4 then op in DirectoryPart(env)
              else if Rank(op) < 7 then op in CheckPart(env)
              else op in IssuePart(env, savesRenewedId)
  {
    Segments(env, savesRenewedId);
    SegmentRanks(env, savesRenewedId);
  }

  /** Every run performs its operations in program order, each at most
      once: directories, then the validity check, then issuance. */
  lemma OrchestrateOrdered(env: Env, savesRenewedId: bool)
    ensures Ordered(Orchestrate(env, savesRenewedId).trace)
  {
    Segments(env, savesRenewedId);
    SegmentRanks(env, savesRenewedId);
    AppendKeepsOrder(DirectoryPart(env), CheckPart(env), 0, 4, 7);
    AppendKeepsOrder(DirectoryPart(env) + CheckPart(env), IssuePart(env, savesRenewedId), 0, 7, 23);
  }

  /** One run of cfbot as the code is written. */
  function Run(env: Env): RunResult
  {
    Orchestrate(env, false)
  }

  /** One run with renewals also saving the new certificate id. */
  function RunFixed(env: Env): RunResult
  {
    Orchestrate(env, true)
  }
}

=== FILE: properties.dfy ===
/** What one run of cfbot, as the code is written, does and does not do:
    flag validation, directory handling, the choice between provisioning and
    renewal, the order of the issuance steps, the request contents, the
    mode-specific endings and the terminal effect of every error. */
module Properties {
  import opened Configs
  import opened Validity
  import opened Effects
  import opened Lifecycle

  /** An empty auth key aborts before anything else; empty hostnames abort
      next; with both present the first operation is the config directory's
      stat. */
  lemma FlagsAreValidatedFirst(env: Env, savesRenewedId: bool)
    ensures env.settings.auth == "" ==> Orchestrate(env, savesRenewedId) == RunResult([], Aborted(AuthNotSet))
    ensures env.settings.auth != "" && |env.settings.hostnames| == 0 ==>
              Orchestrate(env, savesRenewedId) == RunResult([], Aborted(HostnamesNotSet))
    ensures FlagsValid(env) ==>
              0 < |Orchestrate(env, savesRenewedId).trace| && Orchestrate(env, savesRenewedId).trace[0] == Stat(CfbotDir)
  {
    if FlagsValid(env) {
      OrchestrateShape(env, savesRenewedId);
    }
  }

  /** The two directory checks on their own: the config directory's stat
      comes first; the live directory is looked at only when the config
      directory is in place; a directory is created only when missing on an
      initial run; a missing directory on a later run, or any other stat
      error, aborts. */
  lemma DirectoryChecks(env: Env)
    ensures Directories(env).trace[0] == Stat(CfbotDir)
    ensures Directories(env).failure.None? ==> Stat(LiveDir) in Directories(env).trace
    ensures forall d: Dir :: MkdirAll(d, DirMode) in Directories(env).trace ==>
              env.settings.init && StatOf(env, d) == NotExist
    ensures env.cfbotDir == StatError || (env.cfbotDir == NotExist && !env.settings.init) ==>
              Directories(env) == Partial([Stat(CfbotDir)], Some(FoldersNotSetUp(CfbotDir)))
    ensures env.cfbotDir == Exists && (env.liveDir == StatError || (env.liveDir == NotExist && !env.settings.init)) ==>
              Directories(env) == Partial([Stat(CfbotDir), Stat(LiveDir)], Some(FoldersNotSetUp(LiveDir)))
    ensures env.cfbotDir == Exists && env.liveDir == Exists ==>
              Directories(env) == Partial([Stat(CfbotDir), Stat(LiveDir)], None)
  {
    var base := VerifyDirectory(CfbotDir, env.cfbotDir, env.settings.init, env.fails);
    var live := VerifyDirectory(LiveDir, env.liveDir, env.settings.init, env.fails);
    var dirs := Directories(env);
    if base.failure.None? {
      assert dirs.trace == base.trace + live.trace;
      assert dirs.trace[|base.trace|] == Stat(LiveDir);
    }
    forall d: Dir | MkdirAll(d, DirMode) in dirs.trace
      ensures env.settings.init && StatOf(env, d) == NotExist
    {
      if MkdirAll(d, DirMode) in base.trace {
        assert d == CfbotDir;
      } else {
        assert MkdirAll(d, DirMode) in live.trace;
        assert d == LiveDir;
      }
    }
  }

  /** In a whole run, the directory checks come first and any certificate
      work comes after both of them have passed. */
  lemma DirectoriesComeFirst(env: Env, savesRenewedId: bool)
    requires FlagsValid(env)
    ensures var dirs := Directories(env);
            var t := Orchestrate(env, savesRenewedId).trace;
            && |dirs.trace| <= |t| && t[..|dirs.trace|] == dirs.trace
            && (|dirs.trace| < |t| ==> dirs.failure.None?)
            && forall i | |dirs.trace| <= i < |t| :: Rank(t[i]) >= 4
  {
    DirectoriesThenRest(env, savesRenewedId);
    PrefixThenRanks(Orchestrate(env, savesRenewedId).trace, Directories(env).trace, AfterDirectories(env, savesRenewedId), 4, 23);
  }

  /** Nothing but the directory checks creates a directory, and a failed
      directory check ends the run. */
  lemma DirectoryFailureEndsRun(env: Env, savesRenewedId: bool)
    requires FlagsValid(env)
    ensures forall d: Dir :: MkdirAll(d, DirMode) in Orchestrate(env, savesRenewedId).trace ==>
              env.settings.init && StatOf(env, d) == NotExist
    ensures Directories(env).failure.Some? ==>
              Orchestrate(env, savesRenewedId) == RunResult(Directories(env).trace, Aborted(Directories(env).failure.value))
  {
    DirectoryChecks(env);
    forall d: Dir | MkdirAll(d, DirMode) in Orchestrate(env, savesRenewedId).trace
      ensures env.settings.init && StatOf(env, d) == NotExist
    {
      RunContains(env, savesRenewedId, MkdirAll(d, DirMode));
    }
    if Directories(env).failure.Some? {
      ShapeAtDirectories(env, savesRenewedId);
    }
  }

  /** An initial run never reads the stored certificate, and once the
      directories are in place it always goes on to generate a new one. */
  lemma InitialRunSkipsValidityCheck(env: Env, savesRenewedId: bool)
    requires env.settings.init
    ensures forall op | op in Orchestrate(env, savesRenewedId).trace :: !(op.ReadFile? || op.ParseCertificate? || op == DecodePem(StoredCertificate))
    ensures Orchestrate(env, savesRenewedId).outcome != NoRenewalNeeded
    ensures FlagsValid(env) && Directories(env).failure.None? ==>
              GenerateCsr(CsrFor(env.settings.hostnames)) in Orchestrate(env, savesRenewedId).trace
  {
    SegmentOutcome(env, savesRenewedId);
    forall op | op in Orchestrate(env, savesRenewedId).trace
      ensures !(op.ReadFile? || op.ParseCertificate? || op == DecodePem(StoredCertificate))
    {
      RunContains(env, savesRenewedId, op);
    }
    if ReachesIssuance(env) {
      var e := Issuance(env, savesRenewedId);
      assert e.trace[0] == GenerateCsr(CsrFor(env.settings.hostnames));
      RunContains(env, savesRenewedId, GenerateCsr(CsrFor(env.settings.hostnames)));
    }
  }

  /** A later run, with its directories in place and its stored certificate
      readable, issues exactly when the 48-hour threshold says so; otherwise
      it ends after reading the certificate, with no CA, hook, revoke or cron
      operation. On any later run, issuing implies the threshold was met. */
  lemma RenewalFollowsThreshold(env: Env, savesRenewedId: bool)
    requires !env.settings.init
    ensures forall op | op in Orchestrate(env, savesRenewedId).trace && Rank(op) >= 7 :: NeedsRenewal(Sub(env.notAfter, env.now))
    ensures Orchestrate(env, savesRenewedId).outcome == NoRenewalNeeded ==>
              && !NeedsRenewal(Sub(env.notAfter, env.now))
              && Orchestrate(env, savesRenewedId).trace == Directories(env).trace + ReadPlan
    ensures FlagsValid(env) && Directories(env).failure.None?
            && (forall op | op in ReadPlan :: !Fails(op, env.fails)) ==>
              && (Orchestrate(env, savesRenewedId).outcome == NoRenewalNeeded <==> !NeedsRenewal(Sub(env.notAfter, env.now)))
              && (GenerateCsr(CsrFor(env.settings.hostnames)) in Orchestrate(env, savesRenewedId).trace <==> NeedsRenewal(Sub(env.notAfter, env.now)))
  {
    SegmentOutcome(env, savesRenewedId);
    Segments(env, savesRenewedId);
    ExecutePrefix(ReadPlan, env.fails);
    forall op | op in Orchestrate(env, savesRenewedId).trace && Rank(op) >= 7
      ensures NeedsRenewal(Sub(env.notAfter, env.now))
    {
      RunContains(env, savesRenewedId, op);
    }
    var csr := GenerateCsr(CsrFor(env.settings.hostnames));
    RunContains(env, savesRenewedId, csr);
    if ReachesIssuance(env) {
      assert Issuance(env, savesRenewedId).trace[0] == csr;
    }
    if Orchestrate(env, savesRenewedId).outcome == NoRenewalNeeded {
      assert CheckPart(env) == ReadPlan;
      assert IssuePart(env, savesRenewedId) == [];
      assert Orchestrate(env, savesRenewedId).trace == Directories(env).trace + ReadPlan + [];
    }
  }

  /** A later run whose stored certificate cannot be read, decoded or parsed
      aborts on that step, before any issuance. */
  lemma UnreadableCertificateAborts(env: Env, savesRenewedId: bool, op: Op)
    requires !env.settings.init && FlagsValid(env)
    requires Directories(env).failure.None?
    requires op in ReadPlan && Fails(op, env.fails)
    ensures Orchestrate(env, savesRenewedId).outcome.Aborted? && Orchestrate(env, savesRenewedId).outcome.reason.Failed?
    ensures Orchestrate(env, savesRenewedId).outcome.reason.op in ReadPlan
    ensures forall i | 0 <= i < |Orchestrate(env, savesRenewedId).trace| :: Rank(Orchestrate(env, savesRenewedId).trace[i]) < 7
  {
    var c := Execute(ReadPlan, env.fails);
    ExecutePrefix(ReadPlan, env.fails);
    assert c.failure.Some? by {
      var k :| 0 <= k < |ReadPlan| && ReadPlan[k] == op;
    }
    ShapeCheckFails(env, savesRenewedId);
    assert c.trace[|c.trace| - 1] in c.trace;
    DirectoriesThenRest(env, savesRenewedId);
    PrefixThenRanks(Orchestrate(env, savesRenewedId).trace, Directories(env).trace, AfterDirectories(env, savesRenewedId), 4, 23);
    CheckStretchBelowIssuance(env, savesRenewedId);
  }

  lemma CheckStretchBelowIssuance(env: Env, savesRenewedId: bool)
    requires !env.settings.init && FlagsValid(env)
    requires Directories(env).failure.None? && Execute(ReadPlan, env.fails).failure.Some?
    ensures Orchestrate(env, savesRenewedId).trace == Directories(env).trace + Execute(ReadPlan, env.fails).trace
    ensures forall i | 0 <= i < |Orchestrate(env, savesRenewedId).trace| :: Rank(Orchestrate(env, savesRenewedId).trace[i]) < 7
  {
    ShapeCheckFails(env, savesRenewedId);
    DirectoriesOrdered(env);
    CheckPartRanks(env);
    assert CheckPart(env) == Execute(ReadPlan, env.fails).trace;
    AppendRanks(Directories(env).trace, CheckPart(env), 0, 4, 7);
  }

  /** The stored previous certificate id is read only on a later run: an
      initial run does the same whatever id the settings carry. */
  lemma StoredIdIgnoredOnInitialRun(env: Env, id: string, savesRenewedId: bool)
    requires env.settings.init
    ensures var other := env.(settings := env.settings.(previousCertificateId := id));
            Orchestrate(other, savesRenewedId) == Orchestrate(env, savesRenewedId)
  {
  }
}

=== FILE: validity.dfy ===
/** The renewal decision of `checkValidityOfCertificate`: how long the stored
    certificate has left, and whether that is under the 48-hour buffer.

    Instants and durations are integers counting nanoseconds, as Go's
    `time.Duration` does; `Duration.Hours` is modelled exactly with `real`. */
module Validity {

  const Second: int := 1_000_000_000
  const Hour: int := 3600 * Second

  /** The range of Go's `time.Duration` (an int64). */
  const MinDuration: int := -0x8000_0000_0000_0000
  const MaxDuration: int := 0x7FFF_FFFF_FFFF_FFFF

  /** `bufferHours` in utils/root.go. */
  const BufferHours: int := 48

  /** How far the duration `d` is from the true difference `t - u`. */
  function Error(d: int, t: int, u: int): nat
  {
    if d <= t - u then t - u - d else d - (t - u)
  }

  /** `t.Sub(u)`: the duration from `u` to `t`, saturated to the int64 range
      when the true difference does not fit. That is, of all durations Go
      can represent, the one nearest the true difference. */
  function Sub(t: int, u: int): (d: int)
    ensures MinDuration <= d <= MaxDuration
    ensures forall x | MinDuration <= x <= MaxDuration :: Error(d, t, u) <= Error(x, t, u)
  {
    if t - u > MaxDuration then MaxDuration
    else if t - u < MinDuration then MinDuration
    else t - u
  }

  /** Only one representable duration is nearest the true difference, so
      `Sub` is exact whenever the difference fits. */
  lemma SubIsExactInRange(t: int, u: int)
    requires MinDuration <= t - u <= MaxDuration
    ensures Sub(t, u) == t - u
  {
    assert Error(t - u, t, u) == 0;
  }

  /** `Duration.Hours`, without floating-point rounding. */
  function Hours(d: int): real
  {
    d as real / Hour as real
  }

  /** The comparison the code writes, `validityLeft.Hours() < bufferHours`,
      read exactly. */
  predicate HoursBelowBuffer(validityLeft: int)
  {
    Hours(validityLeft) < BufferHours as real
  }

  /** True when the certificate has less than the buffer left, so a new one
      must be requested. */
  predicate NeedsRenewal(validityLeft: int)
  {
    validityLeft < BufferHours * Hour
  }

  /** Comparing the duration with 48 hours counted in nanoseconds is the
      same as comparing its length in hours with 48. */
  lemma NeedsRenewalMatchesHours(d: int)
    ensures NeedsRenewal(d) <==> HoursBelowBuffer(d)
  {
    var h := Hour as real;
    assert h > 0.0;
    assert Hours(d) * h == d as real;
    if d < BufferHours * Hour {
      assert d as real < 48.0 * h;
    } else {
      assert d as real >= 48.0 * h;
    }
  }

  /** Counting in whole hours: renewal is due exactly when fewer than 48 hours
      are left; exactly 48 hours left is not due, one nanosecond less is. */
  lemma ThresholdInWholeHours(h: int)
    ensures HoursBelowBuffer(h * Hour) <==> h < 48
    ensures !HoursBelowBuffer(48 * Hour) && HoursBelowBuffer(48 * Hour - 1)
  {
    NeedsRenewalMatchesHours(h * Hour);
    NeedsRenewalMatchesHours(48 * Hour);
    NeedsRenewalMatchesHours(48 * Hour - 1);
  }

  /** The decision taken from a certificate's NotAfter and the current time:
      saturation of `Sub` never changes it. */
  lemma RenewalDecision(notAfter: int, now: int)
    ensures NeedsRenewal(Sub(notAfter, now)) <==> notAfter - now < 48 * Hour
    ensures HoursBelowBuffer(Sub(notAfter, now)) <==> notAfter - now < 48 * Hour
  {
    NeedsRenewalMatchesHours(Sub(notAfter, now));
  }

  /** A certificate with less time left than one that needs renewal needs
      renewal too. */
  lemma NeedsRenewalIsMonotone(shorter: int, longer: int)
    requires shorter <= longer
    requires HoursBelowBuffer(longer)
    ensures HoursBelowBuffer(shorter)
  {
    NeedsRenewalMatchesHours(shorter);
    NeedsRenewalMatchesHours(longer);
  }
}
